=== FILE: README.md ===
# Three-letter name abbreviations, modelled in Dafny

This project models the abbreviation pipeline of `liu_getabbreviations.py` as pure Dafny
functions over sequences, and proves what each stage computes. The pipeline takes one line per
name and a table of letter scores, and produces the best three-letter abbreviations of every
name. It runs in six stages:

1. **Tokenizing** (module `Tokens`). Apostrophes are removed from the line. The rest is split
   on every run of non-letters, and a trailing empty token is dropped.
2. **Letter scoring** (module `Scores`). Each letter gets its table score, adjusted by its
   position inside its word.
3. **Ordered pairs** (module `OrderedPairs`). This is the generic helper
   `subseq2OrCalculateScore`. It combines every pair `(i, j)` with `i < j`, in lexicographic
   order, both to join letters and to add scores.
4. **Candidates** (module `Candidates`). Each name's letters and scores are flattened. Each
   candidate is the first letter followed by two later letters, upper-cased. Its score is the
   sum of those two letters' scores.
5. **Deduplication.**
   - Within a name (module `Within`): every text keeps its lowest score, in order of first
     occurrence.
   - Across names (module `Across`): every text that occurs more than once over all names is
     dropped.
6. **Selection** (module `Best`). For every name, every surviving text whose score is that
   name's lowest is kept, ties included.

Module `Pipeline` composes the stages into `main`'s run (lines 322-327). It also turns the two
exceptions the source can raise into an `Aborted` outcome:
- `KeyError`, when a letter has no table entry;
- `IndexError`, when a name has no letters.

`Seqs` and `Types` hold the shared sequence helpers and the parallel-list datatypes.

The pipeline's own assumptions are kept as they are in the code:
- The score table is a `map<char, int>` from upper-case letters to scores.
- A lookup of a missing letter is a precondition of the scoring stage. `Pipeline.Abbreviations`
  reports it as `Aborted(MissingScore)`.
- `abbreviate` reads the first letter of every name. A name without letters is a precondition
  failure of that stage, reported as `Aborted(NoLetters)`.
- A name with no letters raises `IndexError` at line 156 (`concatenatedname[0]`), and
  `main`'s caller writes no output.
- A line whose first character, once apostrophes are deleted (line 39), is a non-letter keeps
  one empty leading word: line 43 puts `''` first, and lines 44-45 delete only a trailing `''`. `Tokens.Tokenize` states that only the first
  word can be empty, and that it adds no letters.

## Model

| member | source | states |
|---|---|---|
| Tokens.Upper | liu_getabbreviations.py:89 | str.upper on one character: a lower-case ASCII letter becomes the letter 32 code points lower, its upper-case form; any other character is unchanged |
| Tokens.RemoveApostrophes | liu_getabbreviations.py:39 | no apostrophe is left; every other character keeps its count; the result is a subsequence of the line, so with the counts it is the line with its apostrophes deleted, every other character in place |
| Tokens.SplitNonLetters | liu_getabbreviations.py:43 | `re.split` on runs of non-letters; its contract gives at least one piece, and Tokens.SplitIsRuns states what the pieces are: an optional leading empty piece, the maximal letter runs, an optional trailing empty piece |
| Tokens.DropTrailingEmpty | liu_getabbreviations.py:44-45 | the result is a prefix of the pieces, at most one shorter, and it is shorter exactly when the last piece is empty |
| Tokens.SplitDropsTrail | liu_getabbreviations.py:43-45 | the split with its trailing empty piece deleted is the optional leading empty piece followed by the maximal letter runs |
| Tokens.SplitIsRuns | liu_getabbreviations.py:43 | the regex split is the optional empty piece of a leading separator, then the maximal letter runs in order, then the optional empty piece of a trailing separator; the empty line splits into one empty piece |
| Tokens.RunsAreWords | liu_getabbreviations.py:43 | every maximal run is non-empty and made of letters only |
| Tokens.RunsFlatten | liu_getabbreviations.py:43 | joining the runs gives exactly the letters of the line, in order |
| Tokens.Tokenize | liu_getabbreviations.py:39-45 | the words are an optional single empty leading word followed by the maximal letter runs of the apostrophe-free line; no trailing empty word; only the first word can be empty; the words' letters joined are the line's letters |
| Scores.BaseScores | liu_getabbreviations.py:84-89 | same number of names, words per name and letters per word as the input; each letter's score is the table entry of its upper-case form |
| Scores.Adjust | liu_getabbreviations.py:97-107 | the first letter scores 0; a last letter scores 20 when it is an E and 5 otherwise; an inner letter adds its index, capped at 3, to its base |
| Scores.AdjustAll | liu_getabbreviations.py:94-107 | the adjusted scores are nested exactly like the names; the per-letter rule is Scores.Adjust, and Scores.FormatScores states it for the whole pass |
| Scores.FormatScores | liu_getabbreviations.py:84-107 | same nesting as the input. The first letter of a word scores 0, which covers one-letter words. The last letter of a longer word scores 20 for E or e, otherwise 5, whatever its base. An inner letter at index k scores its base plus k, capped at 3 |
| OrderedPairs.ChooseTwoClosedForm | liu_getabbreviations.py:121-123 | the pair count ChooseTwo(n) is n(n-1)/2 |
| OrderedPairs.PairOf | liu_getabbreviations.py:121-123 | every output position k below n(n-1)/2 belongs to one pair i < j < n, and PairIndex maps that pair back to k |
| OrderedPairs.PairIndexOrder | liu_getabbreviations.py:121-123 | pair (i, j) comes before (i', j') exactly when it is lexicographically smaller |
| OrderedPairs.Pairs | liu_getabbreviations.py:119-125 | n(n-1)/2 elements; the element at pair (i, j)'s position is x[i] combined with x[j]; each element is the combination of the pair PairOf gives for it, with the smaller index first |
| OrderedPairs.Subseq2OrCalculateScore | liu_getabbreviations.py:119-125 | the source's double loop computes exactly the ordered pairs above |
| Candidates.CandidateTexts | liu_getabbreviations.py:153-157 | a name of L letters gives (L-1)(L-2)/2 texts, each three characters long |
| Candidates.CandidateScores | liu_getabbreviations.py:158 | one score per pair of later letters, ChooseTwo(L-1) in all; Candidates.ScoresAt gives the score at each pair's position |
| Candidates.TextsAt | liu_getabbreviations.py:153-157 | the text at pair (i, j)'s position, 1 <= i < j, is upper(F[0]) upper(F[i]) upper(F[j]) |
| Candidates.TextsOf | liu_getabbreviations.py:153-157 | conversely, every text is upper(F[0]) upper(F[i]) upper(F[j]) for the pair (i, j) of its position |
| Candidates.ScoresAt | liu_getabbreviations.py:138-158 | the score at pair (i, j)'s position is S[i] + S[j], over the flattened letter scores |
| Candidates.AbbreviateName | liu_getabbreviations.py:137-158 | (L-1)(L-2)/2 candidates, none when L <= 2; candidate k's text and score come from the same pair (i, j); texts are three characters long |
| Candidates.Abbreviate | liu_getabbreviations.py:133-160 | the number of names is kept; each name's lists are that name's candidates; the text and score lists have the same length whenever the letters and scores have the same shape |
| Within.Record | liu_getabbreviations.py:192-193 | one dictionary update; Within.RecordUpdates states its effect on one entry, and Within.Fold, Within.FoldMinimum and Within.FoldOrder state the effect of the whole loop |
| Within.RecordUpdates | liu_getabbreviations.py:192-193 | after one update the text is stored with the lower of its old and new score; no other entry changes; a new text is appended to the keys and a known one leaves them as they were |
| Within.Fold | liu_getabbreviations.py:183-193 | the dictionary's keys are distinct, and a text has a stored score exactly when it is a key |
| Within.FoldKeys | liu_getabbreviations.py:192-194 | the keys are exactly the texts seen |
| Within.FoldMinimum | liu_getabbreviations.py:192-193 | each stored score is at most every score of its text, and is the score of one of its occurrences |
| Within.FoldOrder | liu_getabbreviations.py:192-194 | the keys are in the order of their texts' first occurrences |
| Within.FoldDistinct | liu_getabbreviations.py:184-195 | distinct texts give keys equal to the input, each storing its own score |
| Within.DedupName | liu_getabbreviations.py:182-195 | the output texts are distinct, are exactly the input texts, and are in first-occurrence order; each is paired with the minimum of its scores; the lists are aligned |
| Within.Values | liu_getabbreviations.py:195 | `list(minabbscore.values())`: the stored scores in key order; Within.DedupName and Within.ValuesDistinct state what they are |
| Within.ValuesDistinct | liu_getabbreviations.py:183-195 | on distinct texts the keys are the texts themselves and the values are their own scores, in order |
| Within.DeduplicateWithin | liu_getabbreviations.py:176-197 | the number of names is kept; the results are aligned; each name is deduplicated on its own |
| Within.DedupNameDistinct | liu_getabbreviations.py:182-195 | input whose texts are already distinct comes back unchanged, its scores cut to the texts' length |
| Within.DedupNameIdempotent | liu_getabbreviations.py:182-195 | deduplicating one name twice gives the same as once |
| Within.DeduplicateWithinIdempotent | liu_getabbreviations.py:176-197 | deduplicateWithin is idempotent |
| Across.Step | liu_getabbreviations.py:222-225 | the text is remembered as seen; it becomes marked for removal exactly when it was already seen or already marked; no other text's mark changes |
| Across.Scan | liu_getabbreviations.py:220-225 | after the scan, existingabbrs holds every text seen, and toremove holds exactly the texts seen at least twice |
| Across.DuplicatesCount | liu_getabbreviations.py:220-225 | a text of some name is not marked for removal exactly when it occurs once over all names |
| Across.KeepUnique | liu_getabbreviations.py:229-235 | the intended filter keeps exactly the non-duplicate texts, each as often as it occurs in the name; the (text, score) pairs are kept in their order with their scores; the lists are aligned |
| Across.DeduplicateAcross | liu_getabbreviations.py:209-237 | the number of names is kept; the results are aligned; a text survives in a name exactly when it is that name's and occurs exactly once over all names |
| Across.AcrossDisjoint | liu_getabbreviations.py:229-235 | no text survives in two different names |
| Across.MarkTexts | liu_getabbreviations.py:230-232 | every duplicate text is overwritten with "remove"; the others stay in place |
| Across.MarkScores | liu_getabbreviations.py:230-233 | the score slot of every duplicate text is marked and every other score is kept; only the slots of duplicate texts must exist, so a shorter score list is accepted as long as no duplicate text falls past its end |
| Across.DropSentinel | liu_getabbreviations.py:234 | the kept texts are exactly those different from "remove", each as often as it occurs, in order |
| Across.DropMarked | liu_getabbreviations.py:235 | the kept scores are exactly the unmarked ones, each value as often as it occurs in an unmarked slot |
| Across.DropMarkedInOrder | liu_getabbreviations.py:235 | the kept scores, as slots, are a subsequence of the marked list: they keep their order |
| Across.AcrossNameAsWritten | liu_getabbreviations.py:229-235 | the source's filter for one name: a text survives exactly when it is not a duplicate and is not "remove"; no scores are added. Across.AcrossNameAgrees shows it equals Across.KeepUnique on aligned lists with no "remove" text |
| Across.DeduplicateAcrossAsWritten | liu_getabbreviations.py:209-237 | the source's version: each name is marked and then filtered list by list; it needs a score list for every name and a score slot for every duplicate text, as the indexing on lines 233 and 235 does; score lists of names beyond the text lists come back unchanged |
| Across.AsWrittenAgrees | liu_getabbreviations.py:231-235 | on aligned lists where no text is "remove", the source's version equals the intended filter |
| Across.AsWrittenAgreesOnThreeLetters | liu_getabbreviations.py:231-235 | on three-letter texts, the only kind abbreviate produces, the two versions agree |
| Across.SentinelTextMisaligns | liu_getabbreviations.py:232-235 | a lone text "remove" with score 1 is dropped by the source's version but its score is kept, so the lists misalign; the intended filter keeps both |
| Best.MinScore | liu_getabbreviations.py:262-268 | the running minimum is one of the scores and is at most every score |
| Best.WithScore | liu_getabbreviations.py:272-274 | the collected texts are exactly those whose score is m; there are as many as scores equal to m; they are in input order |
| Best.WithScoreInOrder | liu_getabbreviations.py:272-274 | each collected text comes from a position whose score is m: paired with m, the result is a subsequence of the (text, score) pairs, so repeated texts are taken from the right positions |
| Best.BestForName | liu_getabbreviations.py:256-276 | no texts gives an empty result; otherwise the result is non-empty, holds in order exactly the texts whose score is the name's lowest, and is what collecting the texts with that lowest score (Best.WithScore) gives, occurrence by occurrence |
| Best.GetBestAbbreviations | liu_getabbreviations.py:253-278 | one result per name, each the selection above |
| Best.AllTiesKept | liu_getabbreviations.py:272-274 | when all scores tie, every text is selected |
| Pipeline.Names | liu_getabbreviations.py:39-47 | one word list per line; its letters joined are the line's letters |
| Pipeline.ScorableIff | liu_getabbreviations.py:89 | the table covers every letter of every word exactly when it covers every letter of every line |
| Pipeline.Abbreviations | liu_getabbreviations.py:322-327 | the run stops on a missing score exactly when some letter has no table entry. Otherwise it stops on a letterless name exactly when some line has no letters. Otherwise it gives one result per line |
| Pipeline.CandidateLists | liu_getabbreviations.py:323-324 | one candidate list per name, each the result of Candidates.AbbreviateName on that name's formatted scores, with a score for every candidate |
| Pipeline.WithinLists | liu_getabbreviations.py:325 | one deduplicated list per name, with text and score lists aligned |
| Pipeline.AcrossLists | liu_getabbreviations.py:326 | one list per name after the cross-name filter, with text and score lists aligned |
| Pipeline.BestLists | liu_getabbreviations.py:327 | one best list per name; Pipeline.BestAreCandidates and Pipeline.OutputDisjoint state what it holds |
| Pipeline.CandidatesAreLetterTriples | liu_getabbreviations.py:153-157 | every candidate of a name is upper(F[0]) upper(F[i]) upper(F[j]) for some 1 <= i < j < L |
| Pipeline.TextIsTriple | liu_getabbreviations.py:153-157 | the candidate at any position is the first letter and two later letters of the name, upper-cased |
| Pipeline.BestAreCandidates | liu_getabbreviations.py:322-327 | every selected text of a name survived each earlier stage for that name |
| Pipeline.OutputShape | liu_getabbreviations.py:322-327 | on a run where every letter is scored and every line has a letter, every written abbreviation of a line is its first letter and two later letters, in order, upper-cased |
| Pipeline.OutputDisjoint | liu_getabbreviations.py:322-327 | on a run where every letter is scored and every line has a letter, no abbreviation is written for two different lines |
| Pipeline.ShortLinesGetNothing | liu_getabbreviations.py:322-327 | on a run where every letter is scored and every line has a letter, a line with fewer than three letters gets no abbreviation |
| Pipeline.AsWrittenSameOutput | liu_getabbreviations.py:326 | running the source's deduplicateAcross instead of the intended filter gives the same best abbreviations |

## Left out

- Reading the names file (lines 29-32): this is file I/O. The model starts from the list of lines.
- `cleanLine` (lines 14-18): Python's `strip()` whitespace rules and a dead `'\n'` branch. Lines
  are taken as already trimmed.
- Reading and parsing the score file (lines 69-80): the space split and `int()` parsing. The
  table is given as a map. Keys longer than one character can never be looked up, so a
  `char`-keyed map loses nothing.
- `writeOutput` (lines 287-298): file writing and the space-join of each name's result.
- `main`'s path building and the default scores path (lines 309-320): configuration.
- The command-line loop (lines 340-349): `input()`, printing, and the bare `except` that turns
  any exception into a message. The model reports the two exceptions as `Aborted`.
- The regular-expression engine: the split is written out by hand as a maximal-letter-run
  tokenizer (`Tokens.SplitNonLetters`) and proved equal to a reference definition.
- Tokens.Upper: models `str.upper` for ASCII only. After tokenizing, the letters reach it
  only from `[A-Za-z]`, where this is exact.
- The dictionary `lowestscore` and its single key `'lowest'` (lines 258-268) are modelled as
  the running minimum itself (`Best.MinScore`).

## Findings

| source | as written | input that shows it | evidently intended | confidence | as-written member | corrected member |
|---|---|---|---|---|---|---|
| liu_getabbreviations.py:232-235 | dropped texts and their scores are overwritten with the string "remove", and then each list is filtered on its own for that string | one name whose only text is "remove", with score 1: the text is dropped but its score 1 is kept, so the two lists no longer line up | drop each (text, score) pair whose text occurs more than once; keep all other pairs | not executed; latent, because abbreviate only produces three-letter texts (Across.AsWrittenAgreesOnThreeLetters, Pipeline.AsWrittenSameOutput) | Across.SentinelTextMisaligns | Across.DeduplicateAcross |

=== FILE: across.dfy ===
/**
 * Deduplication across names (deduplicateAcross): one scan over every name's texts
 * finds the texts seen more than once, and every occurrence of those texts is then
 * dropped from every name, together with its score.
 */
module Across {
  import opened Seqs
  import opened Types

  /** The two sets of the scan (lines 220-225): every text seen, and every text seen again. */
  datatype Seen = Seen(existing: set<string>, toRemove: set<string>)

  /** One step of the scan: a text already seen is marked for removal, a new one is remembered. */
  function Step(t: Seen, a: string): (r: Seen)
    ensures r.existing == t.existing + {a}
    ensures a in r.toRemove <==> a in t.toRemove || a in t.existing
    ensures forall b :: b != a ==> (b in r.toRemove <==> b in t.toRemove)
  {
    if a in t.existing then Seen(t.existing, t.toRemove + {a}) else Seen(t.existing + {a}, t.toRemove)
  }

  /** The scan over texts in order (the nested loops over names and texts walk Flatten(abbs)). */
  function Scan(xs: seq<string>): (t: Seen)
    ensures forall a :: a in t.existing <==> a in xs
    ensures forall a :: a in t.toRemove <==> multiset(xs)[a] >= 2
    decreases |xs|
  {
    if |xs| == 0 then Seen({}, {})
    else
      var pre := xs[..|xs| - 1];
      assert xs == pre + [xs[|xs| - 1]];
      Step(Scan(pre), xs[|xs| - 1])
  }

  /** The texts that occur more than once over all names. */
  function Duplicates(abbs: seq<seq<string>>): set<string>
  {
    Scan(Flatten(abbs)).toRemove
  }

  /** A text occurs in the flattening exactly once when it occurs somewhere and is not a duplicate. */
  lemma DuplicatesCount(abbs: seq<seq<string>>, n: nat, a: string)
    requires n < |abbs| && a in abbs[n]
    ensures a !in Duplicates(abbs) <==> multiset(Flatten(abbs))[a] == 1
  {
    FlattenCount(abbs, n);
    assert multiset(abbs[n])[a] >= 1;
  }

  /**
   * The intended filter of lines 229-235 on one name: keep the (text, score) pairs whose
   * text is not a duplicate, in their order.
   */
  function KeepUnique(abbs: seq<string>, scores: seq<int>, dup: set<string>): (r: Entries)
    requires |abbs| <= |scores|
    ensures |r.abbs| == |r.scores|
    ensures forall a :: a in r.abbs <==> a in abbs && a !in dup
    ensures forall a :: a !in dup ==> multiset(r.abbs)[a] == multiset(abbs)[a]
    ensures SubseqOf(Zip(r.abbs, r.scores), Zip(abbs, scores))
    decreases |abbs|
  {
    if |abbs| == 0 then Entries([], [])
    else
      var rest := KeepUnique(abbs[1..], scores[1..], dup);
      assert abbs == [abbs[0]] + abbs[1..];
      ZipCons(abbs, scores);
      if abbs[0] in dup then
        SubseqOfDrop(Zip(rest.abbs, rest.scores), Zip(abbs, scores));
        rest
      else
        var r := Entries([abbs[0]] + rest.abbs, [scores[0]] + rest.scores);
        ZipCons(r.abbs, r.scores);
        assert r.abbs[1..] == rest.abbs && r.scores[1..] == rest.scores;
        r
  }

  /** deduplicateAcross, corrected: a text survives in a name iff it occurs exactly once in all names. */
  function DeduplicateAcross(abbs: seq<seq<string>>, scores: seq<seq<int>>): (r: Lists)
    requires Indexable(abbs, scores)
    ensures |r.abbs| == |abbs|
    ensures Aligned(r.abbs, r.scores)
    ensures forall n :: 0 <= n < |abbs| ==>
      KeepUnique(abbs[n], scores[n], Duplicates(abbs)) == Entries(r.abbs[n], r.scores[n])
    ensures forall n, a :: 0 <= n < |abbs| ==>
      (a in r.abbs[n] <==> a in abbs[n] && multiset(Flatten(abbs))[a] == 1)
  {
    var dup := Duplicates(abbs);
    var each := seq(|abbs|, n requires 0 <= n < |abbs| => KeepUnique(abbs[n], scores[n], dup));
    var r := Lists(seq(|abbs|, n requires 0 <= n < |abbs| => each[n].abbs),
                   seq(|abbs|, n requires 0 <= n < |abbs| => each[n].scores));
    SurvivorsOnce(abbs, r.abbs, dup);
    r
  }

  /** The membership half of DeduplicateAcross's contract, one name and text at a time. */
  lemma SurvivorsOnce(abbs: seq<seq<string>>, kept: seq<seq<string>>, dup: set<string>)
    requires |kept| == |abbs| && dup == Duplicates(abbs)
    requires forall n, a {:trigger a in kept[n]} {:trigger a in abbs[n]} :: 0 <= n < |abbs| ==>
      (a in kept[n] <==> a in abbs[n] && a !in dup)
    ensures forall n, a :: 0 <= n < |abbs| ==>
      (a in kept[n] <==> a in abbs[n] && multiset(Flatten(abbs))[a] == 1)
  {
    forall n, a | 0 <= n < |abbs| && a in abbs[n]
      ensures a !in dup <==> multiset(Flatten(abbs))[a] == 1
    {
      DuplicatesCount(abbs, n, a);
    }
  }

  /** No text survives in two different names. */
  lemma {:induction false} AcrossDisjoint(abbs: seq<seq<string>>, scores: seq<seq<int>>)
    requires Indexable(abbs, scores)
    ensures var r := DeduplicateAcross(abbs, scores);
      forall n, m, a :: 0 <= n < m < |abbs| && a in r.abbs[n] ==> a !in r.abbs[m]
  {
    var r := DeduplicateAcross(abbs, scores);
    forall n, m, a | 0 <= n < m < |abbs| && a in r.abbs[n] && a in r.abbs[m]
      ensures false
    {
      FlattenCountTwo(abbs, n, m, a);
    }
  }

  // ---------------------------------------------------------------------------
  // deduplicateAcross as written: the texts and the scores to drop are first
  // overwritten with the string "remove" (lines 231-233), and each list is then
  // filtered on its own (lines 234-235).
  // ---------------------------------------------------------------------------

  /** The marker lines 232-233 write over a dropped text and its score. */
  const Sentinel: string := "remove"

  /** A score slot after line 233: a score, or the marker. */
  datatype Slot = Score(value: int) | Marked

  /** Line 232 on one name: every duplicate text is overwritten with the marker. */
  function MarkTexts(abbs: seq<string>, dup: set<string>): (r: seq<string>)
    ensures |r| == |abbs|
    ensures forall k :: 0 <= k < |abbs| ==> r[k] == if abbs[k] in dup then Sentinel else abbs[k]
  {
    if |abbs| == 0 then [] else [if abbs[0] in dup then Sentinel else abbs[0]] + MarkTexts(abbs[1..], dup)
  }

  /**
   * Line 233 writes only into the slots of duplicate texts, so only those slots must exist;
   * a score list shorter than the texts raises IndexError only there.
   */
  predicate Markable(abbs: seq<string>, scores: seq<int>, dup: set<string>)
  {
    forall k :: 0 <= k < |abbs| && abbs[k] in dup ==> k < |scores|
  }

  /** Line 233 on one name: the slot of every duplicate text is marked; every other score stays. */
  function MarkScores(abbs: seq<string>, scores: seq<int>, dup: set<string>): (r: seq<Slot>)
    requires Markable(abbs, scores, dup)
    ensures |r| == |scores|
    ensures forall k :: 0 <= k < |scores| ==>
      r[k] == if k < |abbs| && abbs[k] in dup then Marked else Score(scores[k])
    decreases |scores|
  {
    if |scores| == 0 then []
    else
      var next := if |abbs| > 0 then abbs[1..] else [];
      assert forall k :: 0 <= k < |next| ==> next[k] == abbs[k + 1];
      [if |abbs| > 0 && abbs[0] in dup then Marked else Score(scores[0])] + MarkScores(next, scores[1..], dup)
  }

  /** Line 234: keep the texts that differ from the marker. */
  function DropSentinel(texts: seq<string>): (r: seq<string>)
    ensures forall a :: a in r <==> a in texts && a != Sentinel
    ensures forall a :: a != Sentinel ==> multiset(r)[a] == multiset(texts)[a]
    ensures SubseqOf(r, texts)
  {
    if |texts| == 0 then []
    else
      assert texts == [texts[0]] + texts[1..];
      if texts[0] == Sentinel then DropSentinel(texts[1..])
      else
        var r := [texts[0]] + DropSentinel(texts[1..]);
        assert r[1..] == DropSentinel(texts[1..]);
        r
  }

  /** The scores vs as slots, in order. */
  function AsSlots(vs: seq<int>): (s: seq<Slot>)
    ensures |s| == |vs|
    ensures forall k :: 0 <= k < |vs| ==> s[k] == Score(vs[k])
  {
    if |vs| == 0 then [] else [Score(vs[0])] + AsSlots(vs[1..])
  }

  /** Line 235: keep the slots that hold a score, in order, each as often as it occurs. */
  function DropMarked(slots: seq<Slot>): (r: seq<int>)
    ensures |r| <= |slots|
    ensures forall v :: v in r <==> Score(v) in slots
    ensures forall v :: multiset(r)[v] == multiset(slots)[Score(v)]
  {
    if |slots| == 0 then []
    else
      assert slots == [slots[0]] + slots[1..];
      var rest := DropMarked(slots[1..]);
      if slots[0] == Marked then rest
      else
        var r := [slots[0].value] + rest;
        assert r[1..] == rest;
        r
  }

  /** The kept scores are in the order of their slots. */
  lemma {:induction false} DropMarkedInOrder(slots: seq<Slot>)
    ensures SubseqOf(AsSlots(DropMarked(slots)), slots)
  {
    if |slots| > 0 {
      var rest := DropMarked(slots[1..]);
      DropMarkedInOrder(slots[1..]);
      if slots[0] == Marked {
        SubseqOfDrop(AsSlots(rest), slots);
      } else {
        var r := DropMarked(slots);
        assert r == [slots[0].value] + rest;
        assert AsSlots(r)[1..] == AsSlots(rest);
      }
    }
  }

  /** Lines 229-235 on one name, as written. */
  function AcrossNameAsWritten(abbs: seq<string>, scores: seq<int>, dup: set<string>): (r: Entries)
    requires Markable(abbs, scores, dup)
    ensures forall a :: a in r.abbs <==> a in abbs && a !in dup && a != Sentinel
    ensures |r.scores| <= |scores|
  {
    Entries(DropSentinel(MarkTexts(abbs, dup)), DropMarked(MarkScores(abbs, scores, dup)))
  }

  /**
   * deduplicateAcross as written. Line 235 reads the score list of every name, and line 233
   * writes the slots of the duplicate texts. The loop visits the names of abbs only, so the
   * score lists of any further names come back as they were.
   */
  function DeduplicateAcrossAsWritten(abbs: seq<seq<string>>, scores: seq<seq<int>>): (r: Lists)
    requires |abbs| <= |scores|
    requires forall n :: 0 <= n < |abbs| ==> Markable(abbs[n], scores[n], Duplicates(abbs))
    ensures |r.abbs| == |abbs| && |r.scores| == |scores|
    ensures forall n :: 0 <= n < |abbs| ==>
      AcrossNameAsWritten(abbs[n], scores[n], Duplicates(abbs)) == Entries(r.abbs[n], r.scores[n])
    ensures forall n :: |abbs| <= n < |scores| ==> r.scores[n] == scores[n]
  {
    var dup := Duplicates(abbs);
    Lists(seq(|abbs|, n requires 0 <= n < |abbs| => AcrossNameAsWritten(abbs[n], scores[n], dup).abbs),
          seq(|scores|, n requires 0 <= n < |scores| =>
            if n < |abbs| then AcrossNameAsWritten(abbs[n], scores[n], dup).scores else scores[n]))
  }

  /** On aligned lists without the marker text, the as-written filter is the intended one. */
  lemma {:induction false} AcrossNameAgrees(abbs: seq<string>, scores: seq<int>, dup: set<string>)
    requires |abbs| == |scores| && Sentinel !in abbs
    ensures AcrossNameAsWritten(abbs, scores, dup) == KeepUnique(abbs, scores, dup)
    decreases |abbs|
  {
    if |abbs| > 0 {
      AcrossNameAgrees(abbs[1..], scores[1..], dup);
      var texts := MarkTexts(abbs, dup);
      var slots := MarkScores(abbs, scores, dup);
      assert texts[1..] == MarkTexts(abbs[1..], dup);
      assert slots[1..] == MarkScores(abbs[1..], scores[1..], dup);
    }
  }

  /** The two versions agree whenever the lists are aligned and no text is the marker. */
  lemma {:induction false} AsWrittenAgrees(abbs: seq<seq<string>>, scores: seq<seq<int>>)
    requires Aligned(abbs, scores)
    requires forall n :: 0 <= n < |abbs| ==> Sentinel !in abbs[n]
    ensures DeduplicateAcrossAsWritten(abbs, scores) == DeduplicateAcross(abbs, scores)
  {
    var w := DeduplicateAcrossAsWritten(abbs, scores);
    var c := DeduplicateAcross(abbs, scores);
    forall n | 0 <= n < |abbs|
      ensures w.abbs[n] == c.abbs[n] && w.scores[n] == c.scores[n]
    {
      AcrossNameAgrees(abbs[n], scores[n], Duplicates(abbs));
    }
    assert w.abbs == c.abbs;
    assert w.scores == c.scores;
  }

  /** Three-letter abbreviations, which are all abbreviate produces, are never the marker. */
  lemma {:induction false} AsWrittenAgreesOnThreeLetters(abbs: seq<seq<string>>, scores: seq<seq<int>>)
    requires Aligned(abbs, scores)
    requires forall n, k :: 0 <= n < |abbs| && 0 <= k < |abbs[n]| ==> |abbs[n][k]| == 3
    ensures DeduplicateAcrossAsWritten(abbs, scores) == DeduplicateAcross(abbs, scores)
  {
    forall n | 0 <= n < |abbs|
      ensures Sentinel !in abbs[n]
    {
      assert |Sentinel| == 6;
    }
    AsWrittenAgrees(abbs, scores);
  }

  /**
   * The input text "remove" shows the discrepancy: as written, the text is dropped but its
   * score is kept, so the lists come back misaligned; the intended filter keeps both.
   */
  lemma SentinelTextMisaligns()
    ensures DeduplicateAcrossAsWritten([[Sentinel]], [[1]]) == Lists([[]], [[1]])
    ensures DeduplicateAcross([[Sentinel]], [[1]]) == Lists([[Sentinel]], [[1]])
  {
    var abbs: seq<seq<string>> := [[Sentinel]];
    assert Flatten(abbs) == [Sentinel];
    assert Sentinel !in Duplicates(abbs);
    assert MarkTexts([Sentinel], Duplicates(abbs)) == [Sentinel];
    assert MarkScores([Sentinel], [1], Duplicates(abbs)) == [Score(1)];
    assert DropMarked([Score(1)]) == [1];
  }
}

=== FILE: best.dfy ===
/**
 * Selection (getBestAbbreviations): for every name, the lowest score among its
 * abbreviations, and every abbreviation that has it, in order, ties included.
 */
module Best {
  import opened Seqs
  import opened Types

  /** Lines 262-268: the running minimum, replaced only by a strictly lower score. */
  function MinScore(scores: seq<int>): (m: int)
    requires |scores| > 0
    ensures m in scores
    ensures forall i :: 0 <= i < |scores| ==> m <= scores[i]
    decreases |scores|
  {
    if |scores| == 1 then scores[0]
    else
      var pre := scores[..|scores| - 1];
      var m0 := MinScore(pre);
      assert forall i :: 0 <= i < |pre| ==> pre[i] == scores[i];
      if scores[|scores| - 1] < m0 then scores[|scores| - 1] else m0
  }

  /** Lines 272-274: the texts whose score equals m, in their order. */
  function WithScore(abbs: seq<string>, scores: seq<int>, m: int): (r: seq<string>)
    requires |abbs| <= |scores|
    ensures forall a :: a in r <==> exists k :: 0 <= k < |abbs| && abbs[k] == a && scores[k] == m
    ensures |r| == multiset(scores[..|abbs|])[m]
    ensures SubseqOf(r, abbs)
    decreases |abbs|
  {
    if |abbs| == 0 then []
    else
      var rest := WithScore(abbs[1..], scores[1..], m);
      assert scores[..|abbs|] == [scores[0]] + scores[1..][..|abbs| - 1];
      assert forall k :: 1 <= k < |abbs| ==> abbs[1..][k - 1] == abbs[k] && scores[1..][k - 1] == scores[k];
      if scores[0] == m then
        var r := [abbs[0]] + rest;
        assert r[1..] == rest;
        r
      else rest
  }

  /** Every collected text is taken from a position whose score is m, in order: paired with m, the result is a subsequence of the (text, score) pairs. */
  lemma {:induction false} WithScoreInOrder(abbs: seq<string>, scores: seq<int>, m: int)
    requires |abbs| <= |scores|
    ensures var r := WithScore(abbs, scores, m); SubseqOf(Zip(r, Repeat(m, |r|)), Zip(abbs, scores))
    decreases |abbs|
  {
    if |abbs| > 0 {
      var r := WithScore(abbs, scores, m);
      var rest := WithScore(abbs[1..], scores[1..], m);
      WithScoreInOrder(abbs[1..], scores[1..], m);
      ZipCons(abbs, scores);
      if scores[0] == m {
        assert r == [abbs[0]] + rest;
        ZipCons(r, Repeat(m, |r|));
        assert r[1..] == rest;
        assert Repeat(m, |r|)[1..] == Repeat(m, |rest|);
      } else {
        SubseqOfDrop(Zip(rest, Repeat(m, |rest|)), Zip(abbs, scores));
      }
    }
  }

  /** One iteration of the outer loop (lines 256-276): the best abbreviations of one name. */
  function BestForName(abbs: seq<string>, scores: seq<int>): (r: seq<string>)
    requires |abbs| <= |scores|
    ensures |abbs| == 0 ==> r == []
    ensures |abbs| > 0 ==> |r| > 0
    ensures forall a :: a in r <==>
      (exists k :: 0 <= k < |abbs| && abbs[k] == a && (forall i :: 0 <= i < |abbs| ==> scores[k] <= scores[i]))
    ensures SubseqOf(r, abbs)
    ensures forall m :: m in scores[..|abbs|] && (forall i :: 0 <= i < |abbs| ==> m <= scores[i]) ==>
      r == WithScore(abbs, scores, m)
  {
    if |abbs| == 0 then []
    else
      var s := scores[..|abbs|];
      var m := MinScore(s);
      assert forall i :: 0 <= i < |abbs| ==> s[i] == scores[i];
      var r := WithScore(abbs, scores, m);
      assert multiset(s)[m] > 0;
      BestMembers(abbs, scores, m);
      r
  }

  /** With m the lowest score, having score m and having no lower score than any other text are the same. */
  lemma BestMembers(abbs: seq<string>, scores: seq<int>, m: int)
    requires |abbs| <= |scores|
    requires exists i :: 0 <= i < |abbs| && scores[i] == m
    requires forall i :: 0 <= i < |abbs| ==> m <= scores[i]
    ensures forall k :: 0 <= k < |abbs| ==> (scores[k] == m <==> forall i :: 0 <= i < |abbs| ==> scores[k] <= scores[i])
  {
  }

  /** getBestAbbreviations over all names. */
  function GetBestAbbreviations(abbs: seq<seq<string>>, scores: seq<seq<int>>): (r: seq<seq<string>>)
    requires Indexable(abbs, scores)
    ensures |r| == |abbs|
    ensures forall n :: 0 <= n < |abbs| ==> r[n] == BestForName(abbs[n], scores[n])
  {
    seq(|abbs|, n requires 0 <= n < |abbs| => BestForName(abbs[n], scores[n]))
  }

  /** All tied abbreviations are kept: with every score equal, every text is selected. */
  lemma AllTiesKept(abbs: seq<string>, scores: seq<int>)
    requires |abbs| <= |scores|
    requires forall i, j :: 0 <= i < |abbs| && 0 <= j < |abbs| ==> scores[i] == scores[j]
    ensures BestForName(abbs, scores) == abbs
  {
    if |abbs| > 0 {
      SelectAll(abbs, scores, scores[0]);
    }
  }

  /** When every score is m, WithScore keeps everything. */
  lemma {:induction false} SelectAll(abbs: seq<string>, scores: seq<int>, m: int)
    requires |abbs| <= |scores|
    requires forall i :: 0 <= i < |abbs| ==> scores[i] == m
    ensures WithScore(abbs, scores, m) == abbs
    decreases |abbs|
  {
    if |abbs| > 0 {
      SelectAll(abbs[1..], scores[1..], m);
      assert [abbs[0]] + abbs[1..] == abbs;
    }
  }
}

=== FILE: candidates.dfy ===
/**
 * Candidate generation (abbreviate): the name's letters and scores are flattened, and
 * every ordered pair (i, j) with 1 <= i < j of the flattened letters gives the candidate
 * text F[0] F[i] F[j] in upper case, scored S[i] + S[j].
 */
module Candidates {
  import opened Seqs
  import opened Tokens
  import opened OrderedPairs
  import opened Types

  /** Python's s[1:], which is empty for an empty s. */
  function Tail<T>(s: seq<T>): (r: seq<T>)
    ensures |s| > 0 ==> r == s[1..]
    ensures |s| == 0 ==> r == []
  {
    if |s| == 0 then [] else s[1..]
  }

  /** str.upper on a whole string. */
  function UpperStr(s: string): (r: string)
    ensures |r| == |s| && forall k :: 0 <= k < |s| ==> r[k] == Upper(s[k])
  {
    seq(|s|, k requires 0 <= k < |s| => Upper(s[k]))
  }

  /** Position of the candidate built from flattened positions i and j, out of L letters. */
  function CandidateIndex(L: nat, i: nat, j: nat): nat
    requires 1 <= i < j < L
  {
    PairIndex(L - 1, i - 1, j - 1)
  }

  /** The candidate text built from letters 0, i and j of the flattened name, upper-cased. */
  function Triple(F: string, i: nat, j: nat): string
    requires 0 < i < j < |F|
  {
    [Upper(F[0]), Upper(F[i]), Upper(F[j])]
  }

  /** The source's concatenation of two letters. */
  function Join(a: char, b: char): string
  {
    [a, b]
  }

  /** The source's sum of two scores. */
  function Sum(x: int, y: int): int
  {
    x + y
  }

  /** Lines 153-157: every pair of later letters, behind the first letter, upper-cased. */
  function CandidateTexts(F: string): (texts: seq<string>)
    requires |F| > 0
    ensures |texts| == ChooseTwo(|F| - 1)
    ensures forall k :: 0 <= k < |texts| ==> |texts[k]| == 3
  {
    var secondAndThirds := Pairs(F[1..], Join);
    PairsOfLetters(F[1..]);
    seq(|secondAndThirds|, k requires 0 <= k < |secondAndThirds| => UpperStr([F[0]] + secondAndThirds[k]))
  }

  /** Every joined pair is two letters long. */
  lemma PairsOfLetters(rest: string)
    ensures forall k :: 0 <= k < |Pairs(rest, Join)| ==> |Pairs(rest, Join)[k]| == 2
  {
    forall k | 0 <= k < |Pairs(rest, Join)|
      ensures |Pairs(rest, Join)[k]| == 2
    {
      var p := PairOf(|rest|, k);
    }
  }

  /** Line 158: the sum of the scores of every pair of later letters. */
  function CandidateScores(S: seq<int>): (scores: seq<int>)
    ensures |scores| == ChooseTwo(|Tail(S)|)
  {
    Pairs(Tail(S), Sum)
  }

  /** The text at the position of pair (i, j) is made of letters 0, i and j. */
  lemma TextsAt(F: string)
    requires |F| > 0
    ensures forall i, j :: 1 <= i < j < |F| ==>
      CandidateIndex(|F|, i, j) < |CandidateTexts(F)| &&
      CandidateTexts(F)[CandidateIndex(|F|, i, j)] == Triple(F, i, j)
  {
    var texts := CandidateTexts(F);
    var rest := F[1..];
    forall i, j | 1 <= i < j < |F|
      ensures CandidateIndex(|F|, i, j) < |texts|
      ensures texts[CandidateIndex(|F|, i, j)] == Triple(F, i, j)
    {
      var k := PairIndex(|rest|, i - 1, j - 1);
      assert CandidateIndex(|F|, i, j) == k;
      assert Pairs(rest, Join)[k] == Join(rest[i - 1], rest[j - 1]);
      assert texts[k] == UpperStr([F[0], F[i], F[j]]);
    }
  }

  /** Conversely, the text at position k is made of letters 0, i and j for the pair (i, j) PairOf finds. */
  lemma TextsOf(F: string)
    requires |F| > 0
    ensures forall k {:trigger PairOf(|F| - 1, k)} :: 0 <= k < |CandidateTexts(F)| ==>
      CandidateIndex(|F|, PairOf(|F| - 1, k).0 + 1, PairOf(|F| - 1, k).1 + 1) == k &&
      CandidateTexts(F)[k] == Triple(F, PairOf(|F| - 1, k).0 + 1, PairOf(|F| - 1, k).1 + 1)
  {
    forall k | 0 <= k < |CandidateTexts(F)|
      ensures CandidateIndex(|F|, PairOf(|F| - 1, k).0 + 1, PairOf(|F| - 1, k).1 + 1) == k
      ensures CandidateTexts(F)[k] == Triple(F, PairOf(|F| - 1, k).0 + 1, PairOf(|F| - 1, k).1 + 1)
    {
      TextOf(F, k);
    }
  }

  /** TextsOf for one position k. */
  lemma TextOf(F: string, k: nat)
    requires |F| > 0 && k < |CandidateTexts(F)|
    ensures var p := PairOf(|F| - 1, k);
      CandidateIndex(|F|, p.0 + 1, p.1 + 1) == k &&
      CandidateTexts(F)[k] == Triple(F, p.0 + 1, p.1 + 1)
  {
    var rest := F[1..];
    var p := PairOf(|rest|, k);
    var joined := Pairs(rest, Join);
    assert joined[k] == Join(rest[p.0], rest[p.1]);
    assert rest[p.0] == F[p.0 + 1] && rest[p.1] == F[p.1 + 1];
    assert CandidateTexts(F)[k] == UpperStr([F[0]] + joined[k]);
  }

  /** The score at the position of pair (i, j) is S[i] + S[j]. */
  lemma ScoresAt(S: seq<int>)
    ensures forall i, j :: 1 <= i < j < |S| ==>
      CandidateIndex(|S|, i, j) < |CandidateScores(S)| &&
      CandidateScores(S)[CandidateIndex(|S|, i, j)] == S[i] + S[j]
  {
    forall i, j | 1 <= i < j < |S|
      ensures CandidateIndex(|S|, i, j) < |CandidateScores(S)|
      ensures CandidateScores(S)[CandidateIndex(|S|, i, j)] == S[i] + S[j]
    {
      var rest := Tail(S);
      assert |rest| == |S| - 1;
      assert rest[i - 1] == S[i] && rest[j - 1] == S[j];
      var k := PairIndex(|rest|, i - 1, j - 1);
      assert CandidateIndex(|S|, i, j) == k;
      assert Pairs(rest, Sum)[k] == Sum(rest[i - 1], rest[j - 1]);
    }
  }

  /** One iteration of abbreviate's loop (lines 137-158), for one name. */
  function AbbreviateName(words: seq<string>, wordScores: seq<seq<int>>): (r: Entries)
    requires |Flatten(words)| > 0
    ensures var F := Flatten(words); var L := |F|;
      && |r.abbs| == ChooseTwo(L - 1)
      && (forall i, j :: 1 <= i < j < L ==>
            CandidateIndex(L, i, j) < |r.abbs| &&
            r.abbs[CandidateIndex(L, i, j)] == Triple(F, i, j))
      && (forall k {:trigger PairOf(L - 1, k)} :: 0 <= k < |r.abbs| ==>
            CandidateIndex(L, PairOf(L - 1, k).0 + 1, PairOf(L - 1, k).1 + 1) == k &&
            r.abbs[k] == Triple(F, PairOf(L - 1, k).0 + 1, PairOf(L - 1, k).1 + 1))
    ensures var S := Flatten(wordScores); var M := |S|;
      && |r.scores| == ChooseTwo(|Tail(S)|)
      && (forall i, j :: 1 <= i < j < M ==>
            CandidateIndex(M, i, j) < |r.scores| &&
            r.scores[CandidateIndex(M, i, j)] == S[i] + S[j])
    ensures forall k :: 0 <= k < |r.abbs| ==> |r.abbs[k]| == 3
  {
    var F, S := Flatten(words), Flatten(wordScores);
    TextsAt(F);
    TextsOf(F);
    ScoresAt(S);
    Entries(CandidateTexts(F), CandidateScores(S))
  }

  /**
   * abbreviate over all names. Every name must have at least one letter: the source
   * indexes the first letter at line 156 and raises IndexError otherwise.
   */
  function Abbreviate(names: seq<seq<string>>, scores: seq<seq<seq<int>>>): (r: Lists)
    requires |names| <= |scores|
    requires forall n :: 0 <= n < |names| ==> |Flatten(names[n])| > 0
    ensures |r.abbs| == |names| && |r.scores| == |names|
    ensures forall n :: 0 <= n < |names| ==> AbbreviateName(names[n], scores[n]) == Entries(r.abbs[n], r.scores[n])
    ensures forall n :: 0 <= n < |names| && |Flatten(names[n])| == |Flatten(scores[n])| ==>
      |r.abbs[n]| == |r.scores[n]|
  {
    var each := seq(|names|, n requires 0 <= n < |names| => AbbreviateName(names[n], scores[n]));
    Lists(seq(|names|, n requires 0 <= n < |names| => each[n].abbs),
          seq(|names|, n requires 0 <= n < |names| => each[n].scores))
  }
}

=== FILE: pairs.dfy ===
/**
 * Ordered two-element combinations of a sequence: x[i] combined with x[j] for every
 * i < j, in lexicographic order of (i, j). The source uses one generic helper for
 * both letters (concatenation) and scores (addition); here the combining operation
 * is a parameter.
 */
module OrderedPairs {

  /** Row i: x[i] combined with each later element, in order. */
  function Row<T, U>(xs: seq<T>, i: nat, f: (T, T) -> U): (r: seq<U>)
    requires i < |xs|
    ensures |r| == |xs| - 1 - i
  {
    seq(|xs| - 1 - i, k requires 0 <= k < |xs| - 1 - i => f(xs[i], xs[i + 1 + k]))
  }

  /** Rows 0 .. i-1 joined, as the outer loop has produced them after i rounds. */
  function Rows<T, U>(xs: seq<T>, i: nat, f: (T, T) -> U): seq<U>
    requires i <= |xs|
  {
    if i == 0 then [] else Rows(xs, i - 1, f) + Row(xs, i - 1, f)
  }

  /** Number of pairs whose first index is below i, out of n elements. */
  function Start(n: nat, i: nat): nat
    requires i <= n
  {
    if i == 0 then 0 else Start(n, i - 1) + (n - i)
  }

  /** Position of the pair (i, j) in the output. */
  function PairIndex(n: nat, i: nat, j: nat): nat
    requires i < j < n
  {
    Start(n, i) + (j - i - 1)
  }

  /** n choose 2, the number of pairs (i, j) with i < j < n; ChooseTwoClosedForm gives n * (n - 1) / 2. */
  function ChooseTwo(n: nat): nat
  {
    if n == 0 then 0 else ChooseTwo(n - 1) + (n - 1)
  }

  lemma {:induction false} ChooseTwoClosedForm(n: nat)
    ensures 2 * ChooseTwo(n) == n * (n - 1)
    ensures ChooseTwo(n) == n * (n - 1) / 2
  {
    if n > 0 {
      ChooseTwoClosedForm(n - 1);
      assert 2 * ChooseTwo(n) == (n - 1) * (n - 2) + 2 * (n - 1);
    }
  }

  /** All ordered pairs of xs combined by f. */
  function Pairs<T, U>(xs: seq<T>, f: (T, T) -> U): (r: seq<U>)
    ensures |r| == ChooseTwo(|xs|)
    ensures forall i, j :: 0 <= i < j < |xs| ==>
      PairIndex(|xs|, i, j) < |r| && r[PairIndex(|xs|, i, j)] == f(xs[i], xs[j])
    ensures forall k {:trigger PairOf(|xs|, k)} :: 0 <= k < |r| ==> r[k] == f(xs[PairOf(|xs|, k).0], xs[PairOf(|xs|, k).1])
  {
    RowsLength(xs, |xs|, f);
    PairCount(|xs|);
    PairsAt(xs, f);
    Rows(xs, |xs|, f)
  }

  /** The first index of the pair at output position k: the row whose range holds k. */
  function RowFrom(n: nat, i: nat, k: nat): (row: nat)
    requires i <= n && Start(n, i) <= k < Start(n, n)
    ensures i <= row < n && Start(n, row) <= k < Start(n, row + 1)
    decreases n - i
  {
    if k < Start(n, i + 1) then i else RowFrom(n, i + 1, k)
  }

  /** The pair (i, j) at output position k: the inverse of PairIndex. */
  function PairOf(n: nat, k: nat): (p: (nat, nat))
    requires k < ChooseTwo(n)
    ensures p.0 < p.1 < n && PairIndex(n, p.0, p.1) == k
  {
    PairCount(n);
    var i := RowFrom(n, 0, k);
    (i, k - Start(n, i) + i + 1)
  }

  lemma {:induction false} RowsLength<T, U>(xs: seq<T>, i: nat, f: (T, T) -> U)
    requires i <= |xs|
    ensures |Rows(xs, i, f)| == Start(|xs|, i)
  {
    if i > 0 {
      RowsLength(xs, i - 1, f);
    }
  }

  lemma {:induction false} StartClosedForm(n: nat, i: nat)
    requires i <= n
    ensures 2 * Start(n, i) == i * (2 * n - i - 1)
  {
    if i > 0 {
      StartClosedForm(n, i - 1);
      calc {
        2 * Start(n, i);
        2 * Start(n, i - 1) + 2 * (n - i);
        (i - 1) * (2 * n - i) + 2 * (n - i);
        i * (2 * n - i) - (2 * n - i) + 2 * (n - i);
        i * (2 * n - i) - i;
        i * (2 * n - i - 1);
      }
    }
  }

  lemma PairCount(n: nat)
    ensures Start(n, n) == ChooseTwo(n)
  {
    StartClosedForm(n, n);
    ChooseTwoClosedForm(n);
  }

  lemma {:induction false} StartMonotone(n: nat, i: nat, i': nat)
    requires i <= i' <= n
    ensures Start(n, i) <= Start(n, i')
    decreases i' - i
  {
    if i < i' {
      StartMonotone(n, i, i' - 1);
    }
  }

  /** Later rounds of the outer loop only append. */
  lemma {:induction false} RowsPrefix<T, U>(xs: seq<T>, i: nat, i': nat, f: (T, T) -> U)
    requires i <= i' <= |xs|
    ensures |Rows(xs, i, f)| <= |Rows(xs, i', f)|
    ensures Rows(xs, i', f)[..|Rows(xs, i, f)|] == Rows(xs, i, f)
    decreases i' - i
  {
    if i < i' {
      RowsPrefix(xs, i, i' - 1, f);
      var p := Rows(xs, i' - 1, f);
      assert Rows(xs, i', f) == p + Row(xs, i' - 1, f);
      assert (p + Row(xs, i' - 1, f))[..|p|] == p;
    }
  }

  lemma PairsAt<T, U>(xs: seq<T>, f: (T, T) -> U)
    ensures forall i, j :: 0 <= i < j < |xs| ==>
      PairIndex(|xs|, i, j) < |Rows(xs, |xs|, f)| &&
      Rows(xs, |xs|, f)[PairIndex(|xs|, i, j)] == f(xs[i], xs[j])
  {
    forall i, j | 0 <= i < j < |xs|
      ensures PairIndex(|xs|, i, j) < |Rows(xs, |xs|, f)|
      ensures Rows(xs, |xs|, f)[PairIndex(|xs|, i, j)] == f(xs[i], xs[j])
    {
      RowsLength(xs, i, f);
      RowsPrefix(xs, i + 1, |xs|, f);
      var upto := Rows(xs, i + 1, f);
      assert upto == Rows(xs, i, f) + Row(xs, i, f);
      assert upto[PairIndex(|xs|, i, j)] == Row(xs, i, f)[j - i - 1];
    }
  }

  /** The output is ordered lexicographically by (i, j): so no pair appears twice or swapped. */
  lemma PairIndexOrder(n: nat, i: nat, j: nat, i': nat, j': nat)
    requires i < j < n && i' < j' < n
    ensures PairIndex(n, i, j) < PairIndex(n, i', j') <==> i < i' || (i == i' && j < j')
  {
    if i < i' {
      StartMonotone(n, i + 1, i');
    } else if i' < i {
      StartMonotone(n, i' + 1, i);
    }
  }

  /** The source's nested loop (liu_getabbreviations.py:119-125), producing the same sequence. */
  method Subseq2OrCalculateScore<T, U>(xs: seq<T>, f: (T, T) -> U) returns (r: seq<U>)
    ensures r == Pairs(xs, f)
  {
    r := [];
    var i := 0;
    while i < |xs|
      invariant 0 <= i <= |xs|
      invariant r == Rows(xs, i, f)
    {
      var j := i + 1;
      while j < |xs|
        invariant i + 1 <= j <= |xs|
        invariant r == Rows(xs, i, f) + Row(xs, i, f)[..j - i - 1]
      {
        r := r + [f(xs[i], xs[j])];
        j := j + 1;
      }
      i := i + 1;
    }
  }
}

=== FILE: pipeline.dfy ===
/**
 * The whole run of main (lines 322-327) from the trimmed input lines to the best
 * abbreviations of every name: tokenize, score, generate candidates, deduplicate
 * within and across names, and select. A missing table entry (KeyError in
 * formatScores) or a name without letters (IndexError in abbreviate) stops the run
 * before anything is written.
 */
module Pipeline {
  import opened Seqs
  import opened Tokens
  import opened OrderedPairs
  import opened Types
  import opened Scores
  import opened Candidates
  import opened Within
  import opened Across
  import opened Best

  /** Why a run stopped: the exception the source raises. */
  datatype Failure = MissingScore | NoLetters

  /** A run either produces the best abbreviations of every name or stops. */
  datatype Outcome = Written(best: seq<seq<string>>) | Aborted(reason: Failure)

  /** The words of every line (cleanNames, after the I/O and trimming). */
  function Names(lines: seq<string>): (names: seq<seq<string>>)
    ensures |names| == |lines|
    ensures forall n :: 0 <= n < |lines| ==> names[n] == Tokenize(lines[n])
    ensures forall n :: 0 <= n < |lines| ==> Flatten(names[n]) == KeepLetters(lines[n])
  {
    seq(|lines|, n requires 0 <= n < |lines| => Tokenize(lines[n]))
  }

  /** Every letter of every line has an entry in the table. */
  predicate AllScored(table: ScoreTable, lines: seq<string>)
  {
    forall n, c :: 0 <= n < |lines| && c in KeepLetters(lines[n]) ==> Upper(c) in table
  }

  /** Some line has no letters at all. */
  predicate SomeLineWithoutLetters(lines: seq<string>)
  {
    exists n :: 0 <= n < |lines| && KeepLetters(lines[n]) == []
  }

  /** The table covers the words exactly when it covers the letters of the lines. */
  lemma ScorableIff(table: ScoreTable, lines: seq<string>)
    ensures Scorable(table, Names(lines)) <==> AllScored(table, lines)
  {
    var names := Names(lines);
    if Scorable(table, names) {
      forall n, c | 0 <= n < |lines| && c in KeepLetters(lines[n])
        ensures Upper(c) in table
      {
        FlattenMember(names[n], c);
        var w :| 0 <= w < |names[n]| && c in names[n][w];
        var k :| 0 <= k < |names[n][w]| && names[n][w][k] == c;
      }
    }
    if AllScored(table, lines) {
      forall n, w, k | 0 <= n < |names| && 0 <= w < |names[n]| && 0 <= k < |names[n][w]|
        ensures Upper(names[n][w][k]) in table
      {
        FlattenMember(names[n], names[n][w][k]);
      }
    }
  }

  /** The preconditions of the stages: every letter scored, every name with a letter. */
  predicate Runnable(table: ScoreTable, names: seq<seq<string>>)
  {
    Scorable(table, names) && forall n :: 0 <= n < |names| ==> |Flatten(names[n])| > 0
  }

  /** Lines 323-324: the candidates of every name with their scores, aligned. */
  function CandidateLists(table: ScoreTable, names: seq<seq<string>>): (r: Lists)
    requires Runnable(table, names)
    ensures |r.abbs| == |names|
    ensures Indexable(r.abbs, r.scores)
    ensures forall n :: 0 <= n < |names| ==>
      AbbreviateName(names[n], FormatScores(table, names)[n]) == Entries(r.abbs[n], r.scores[n])
  {
    var scores := FormatScores(table, names);
    forall n | 0 <= n < |names|
      ensures |Flatten(names[n])| == |Flatten(scores[n])|
    {
      FlattenSameShape(names[n], scores[n]);
    }
    Abbreviate(names, scores)
  }

  /** Line 325. */
  function WithinLists(table: ScoreTable, names: seq<seq<string>>): (r: Lists)
    requires Runnable(table, names)
    ensures Aligned(r.abbs, r.scores) && |r.abbs| == |names|
  {
    var c := CandidateLists(table, names);
    DeduplicateWithin(c.abbs, c.scores)
  }

  /** Line 326, with the intended filter. */
  function AcrossLists(table: ScoreTable, names: seq<seq<string>>): (r: Lists)
    requires Runnable(table, names)
    ensures Aligned(r.abbs, r.scores) && |r.abbs| == |names|
  {
    var w := WithinLists(table, names);
    DeduplicateAcross(w.abbs, w.scores)
  }

  /** Line 327: the best abbreviations of every name. */
  function BestLists(table: ScoreTable, names: seq<seq<string>>): (best: seq<seq<string>>)
    requires Runnable(table, names)
    ensures |best| == |names|
  {
    var a := AcrossLists(table, names);
    GetBestAbbreviations(a.abbs, a.scores)
  }

  /**
   * main on trimmed lines. formatScores runs before abbreviate, so a missing table
   * entry is reported even when some line also has no letters.
   */
  function Abbreviations(table: ScoreTable, lines: seq<string>): (o: Outcome)
    ensures o == Aborted(MissingScore) <==> !AllScored(table, lines)
    ensures o == Aborted(NoLetters) <==> AllScored(table, lines) && SomeLineWithoutLetters(lines)
    ensures o.Written? <==> AllScored(table, lines) && !SomeLineWithoutLetters(lines)
    ensures o.Written? ==> |o.best| == |lines|
  {
    var names := Names(lines);
    ScorableIff(table, lines);
    if !Scorable(table, names) then Aborted(MissingScore)
    else if SomeLineWithoutLetters(lines) then Aborted(NoLetters)
    else
      assert forall n :: 0 <= n < |names| ==> |Flatten(names[n])| > 0;
      Written(BestLists(table, names))
  }

  /** A run that is not stopped has the preconditions of every stage. */
  lemma WrittenRunnable(table: ScoreTable, lines: seq<string>)
    requires AllScored(table, lines) && !SomeLineWithoutLetters(lines)
    ensures Runnable(table, Names(lines))
    ensures Abbreviations(table, lines).best == BestLists(table, Names(lines))
  {
    ScorableIff(table, lines);
    var names := Names(lines);
    forall n | 0 <= n < |names|
      ensures |Flatten(names[n])| > 0
    {
      assert KeepLetters(lines[n]) != [];
    }
  }

  /** A selected abbreviation of a name went through every earlier stage for that name. */
  lemma BestAreCandidates(table: ScoreTable, names: seq<seq<string>>, n: nat)
    requires Runnable(table, names) && n < |names|
    ensures forall a :: a in BestLists(table, names)[n] ==>
      && a in AcrossLists(table, names).abbs[n]
      && a in WithinLists(table, names).abbs[n]
      && a in CandidateLists(table, names).abbs[n]
  {
    var x := AcrossLists(table, names);
    SubseqMembers(BestForName(x.abbs[n], x.scores[n]), x.abbs[n]);
  }

  /** The text a is Triple(F, i, j), upper(F[0]) upper(F[i]) upper(F[j]), for some 1 <= i < j < |F|. */
  predicate IsCandidateOf(a: string, F: string)
  {
    exists i, j :: 1 <= i < j < |F| && a == Triple(F, i, j)
  }

  /** Every candidate of a name is built from its first letter and two later letters. */
  lemma CandidatesAreLetterTriples(words: seq<string>, wordScores: seq<seq<int>>, a: string)
    requires |Flatten(words)| > 0
    requires a in AbbreviateName(words, wordScores).abbs
    ensures IsCandidateOf(a, Flatten(words))
  {
    var F := Flatten(words);
    var r := AbbreviateName(words, wordScores);
    var k :| 0 <= k < |r.abbs| && r.abbs[k] == a;
    assert r.abbs == CandidateTexts(F);
    TextIsTriple(F, k);
  }

  /** CandidatesAreLetterTriples for one position of the candidate list. */
  lemma TextIsTriple(F: string, k: nat)
    requires |F| > 0 && k < |CandidateTexts(F)|
    ensures IsCandidateOf(CandidateTexts(F)[k], F)
  {
    TextOf(F, k);
    var p := PairOf(|F| - 1, k);
    var i, j := p.0 + 1, p.1 + 1;
    assert 1 <= i < j < |F|;
    assert CandidateTexts(F)[k] == Triple(F, i, j);
  }

  /** Every abbreviation written for a line is its first letter followed by two later letters, upper-cased. */
  lemma {:induction false} OutputShape(table: ScoreTable, lines: seq<string>)
    requires AllScored(table, lines) && !SomeLineWithoutLetters(lines)
    ensures var best := Abbreviations(table, lines).best;
      forall n, a :: 0 <= n < |lines| && a in best[n] ==> IsCandidateOf(a, KeepLetters(lines[n]))
  {
    WrittenRunnable(table, lines);
    var names := Names(lines);
    forall n, a | 0 <= n < |lines| && a in BestLists(table, names)[n]
      ensures IsCandidateOf(a, KeepLetters(lines[n]))
    {
      BestAreCandidates(table, names, n);
      CandidatesAreLetterTriples(names[n], FormatScores(table, names)[n], a);
    }
  }

  /** No abbreviation is written for two different lines. */
  lemma {:induction false} OutputDisjoint(table: ScoreTable, lines: seq<string>)
    requires AllScored(table, lines) && !SomeLineWithoutLetters(lines)
    ensures var best := Abbreviations(table, lines).best;
      forall n, m, a :: 0 <= n < m < |lines| && a in best[n] ==> a !in best[m]
  {
    WrittenRunnable(table, lines);
    var names := Names(lines);
    var w := WithinLists(table, names);
    AcrossDisjoint(w.abbs, w.scores);
    forall n, m, a | 0 <= n < m < |lines| && a in BestLists(table, names)[n]
      ensures a !in BestLists(table, names)[m]
    {
      BestAreCandidates(table, names, n);
      BestAreCandidates(table, names, m);
    }
  }

  /** A line with fewer than three letters has no candidates, so nothing is written for it. */
  lemma {:induction false} ShortLinesGetNothing(table: ScoreTable, lines: seq<string>)
    requires AllScored(table, lines) && !SomeLineWithoutLetters(lines)
    ensures forall n :: 0 <= n < |lines| && |KeepLetters(lines[n])| < 3 ==> Abbreviations(table, lines).best[n] == []
  {
    WrittenRunnable(table, lines);
    forall n | 0 <= n < |lines| && |KeepLetters(lines[n])| < 3
      ensures BestLists(table, Names(lines))[n] == []
    {
      ShortNamesGetNothing(table, Names(lines), n);
    }
  }

  /** ShortLinesGetNothing on the words of the names. */
  lemma {:induction false} ShortNamesGetNothing(table: ScoreTable, names: seq<seq<string>>, n: nat)
    requires Runnable(table, names) && n < |names| && |Flatten(names[n])| < 3
    ensures BestLists(table, names)[n] == []
  {
    NoCandidates(table, names, n);
    BestAreCandidates(table, names, n);
  }

  /** A name with one or two letters has no candidates. */
  lemma NoCandidates(table: ScoreTable, names: seq<seq<string>>, n: nat)
    requires Runnable(table, names) && n < |names| && |Flatten(names[n])| < 3
    ensures CandidateLists(table, names).abbs[n] == []
  {
    var L := |Flatten(names[n])|;
    assert ChooseTwo(L - 1) == 0;
  }

  /** Every text that reaches deduplicateAcross is three letters long. */
  lemma WithinTextsHaveThreeLetters(table: ScoreTable, names: seq<seq<string>>)
    requires Runnable(table, names)
    ensures var w := WithinLists(table, names);
      forall n, k :: 0 <= n < |w.abbs| && 0 <= k < |w.abbs[n]| ==> |w.abbs[n][k]| == 3
  {
    var c := CandidateLists(table, names);
    var w := WithinLists(table, names);
    forall n, k | 0 <= n < |w.abbs| && 0 <= k < |w.abbs[n]|
      ensures |w.abbs[n][k]| == 3
    {
      assert w.abbs[n][k] in c.abbs[n];
    }
  }

  /** Running the source's deduplicateAcross as written instead gives the same best abbreviations. */
  lemma {:induction false} AsWrittenSameOutput(table: ScoreTable, names: seq<seq<string>>)
    requires Runnable(table, names)
    ensures var w := WithinLists(table, names);
      var a := DeduplicateAcrossAsWritten(w.abbs, w.scores);
      Indexable(a.abbs, a.scores) && GetBestAbbreviations(a.abbs, a.scores) == BestLists(table, names)
  {
    var w := WithinLists(table, names);
    WithinTextsHaveThreeLetters(table, names);
    AsWrittenAgreesOnThreeLetters(w.abbs, w.scores);
  }
}

=== FILE: scores.dfy ===
/**
 * Letter scoring: every letter first gets its base score from the table (looked up by
 * its upper-case form), then the score is adjusted by the letter's index inside its word.
 */
module Scores {
  import opened Tokens

  /** The score table: upper-case letter to base score. */
  type ScoreTable = map<char, int>

  /** Every letter of every word has an entry, so no lookup raises KeyError. */
  predicate Scorable(table: ScoreTable, names: seq<seq<string>>)
  {
    forall n, w, k :: 0 <= n < |names| && 0 <= w < |names[n]| && 0 <= k < |names[n][w]| ==>
      Upper(names[n][w][k]) in table
  }

  /** First pass (lines 84-89): the base score of every letter, nested like the names. */
  function BaseScores(table: ScoreTable, names: seq<seq<string>>): (r: seq<seq<seq<int>>>)
    requires Scorable(table, names)
    ensures |r| == |names|
    ensures forall n :: 0 <= n < |names| ==> |r[n]| == |names[n]|
    ensures forall n, w :: 0 <= n < |names| && 0 <= w < |names[n]| ==> |r[n][w]| == |names[n][w]|
    ensures forall n, w, k :: 0 <= n < |names| && 0 <= w < |names[n]| && 0 <= k < |names[n][w]| ==>
      r[n][w][k] == table[Upper(names[n][w][k])]
  {
    seq(|names|, n requires 0 <= n < |names| =>
      seq(|names[n]|, w requires 0 <= w < |names[n]| =>
        seq(|names[n][w]|, k requires 0 <= k < |names[n][w]| => table[Upper(names[n][w][k])])))
  }

  /** Second pass (lines 97-107) on one letter: the if/elif chain of the source, in its order. */
  function Adjust(word: string, base: seq<int>, k: nat): (s: int)
    requires |base| == |word| && k < |word|
    ensures k == 0 ==> s == 0
    ensures 0 < k == |word| - 1 ==> (s == 20 <==> Upper(word[k]) == 'E') && (s == 20 || s == 5)
    ensures 0 < k < |word| - 1 ==> s - base[k] == (if k < 3 then k else 3)
  {
    if k == 0 then 0
    else if k == |base| - 1 then (if Upper(word[k]) == 'E' then 20 else 5)
    else if k >= 3 then base[k] + 3
    else base[k] + k
  }

  /** Second pass (lines 94-107) over every letter of every word. */
  function AdjustAll(names: seq<seq<string>>, base: seq<seq<seq<int>>>): (r: seq<seq<seq<int>>>)
    requires |base| == |names|
    requires forall n :: 0 <= n < |names| ==> |base[n]| == |names[n]|
    requires forall n, w :: 0 <= n < |names| && 0 <= w < |names[n]| ==> |base[n][w]| == |names[n][w]|
    ensures |r| == |names|
    ensures forall n :: 0 <= n < |names| ==> |r[n]| == |names[n]|
    ensures forall n, w :: 0 <= n < |names| && 0 <= w < |names[n]| ==> |r[n][w]| == |names[n][w]|
  {
    seq(|names|, n requires 0 <= n < |names| =>
      seq(|names[n]|, w requires 0 <= w < |names[n]| =>
        seq(|names[n][w]|, k requires 0 <= k < |names[n][w]| => Adjust(names[n][w], base[n][w], k))))
  }

  /**
   * formatScores: one score per letter, nested exactly like the names, following the
   * positional rule. Word boundaries restart the index.
   */
  function FormatScores(table: ScoreTable, names: seq<seq<string>>): (r: seq<seq<seq<int>>>)
    requires Scorable(table, names)
    ensures |r| == |names|
    ensures forall n :: 0 <= n < |names| ==> |r[n]| == |names[n]|
    ensures forall n, w :: 0 <= n < |names| && 0 <= w < |names[n]| ==> |r[n][w]| == |names[n][w]|
    // the first letter of a word scores 0, which also covers every one-letter word
    ensures forall n, w :: 0 <= n < |names| && 0 <= w < |names[n]| && |names[n][w]| > 0 ==>
      r[n][w][0] == 0
    // the last letter of a longer word scores 20 when it is an E, otherwise 5, whatever its base
    ensures forall n, w :: 0 <= n < |names| && 0 <= w < |names[n]| && |names[n][w]| > 1 ==>
      r[n][w][|names[n][w]| - 1] == (if Upper(names[n][w][|names[n][w]| - 1]) == 'E' then 20 else 5)
    // an inner letter adds its index to the base, capped at 3
    ensures forall n, w, k :: 0 <= n < |names| && 0 <= w < |names[n]| && 0 < k < |names[n][w]| - 1 ==>
      r[n][w][k] == table[Upper(names[n][w][k])] + (if k < 3 then k else 3)
  {
    AdjustAll(names, BaseScores(table, names))
  }
}

=== FILE: seqs.dfy ===
/** Generic facts about sequences that the pipeline stages share. */
module Seqs {

  /** The inner sequences joined end to end, in order (Python's ''.join, or nested-loop flattening). */
  function Flatten<T>(xss: seq<seq<T>>): seq<T>
  {
    if |xss| == 0 then [] else xss[0] + Flatten(xss[1..])
  }

  /** No element occurs twice. */
  predicate Distinct<T(==)>(xs: seq<T>)
  {
    forall i, j :: 0 <= i < j < |xs| ==> xs[i] != xs[j]
  }

  /** Index of the first occurrence of x in xs (Python's list.index). */
  function IndexOf<T(==)>(xs: seq<T>, x: T): (i: nat)
    requires x in xs
    ensures i < |xs| && xs[i] == x
    ensures x !in xs[..i]
  {
    if xs[0] == x then 0 else 1 + IndexOf(xs[1..], x)
  }

  /** xs can be obtained from ys by deleting elements, so its elements keep their relative order. */
  predicate SubseqOf<T(==)>(xs: seq<T>, ys: seq<T>)
    decreases |ys|
  {
    if |xs| == 0 then true
    else if |ys| == 0 then false
    else (xs[0] == ys[0] && SubseqOf(xs[1..], ys[1..])) || SubseqOf(xs, ys[1..])
  }

  /** Every element of a subsequence is an element of the sequence it was taken from. */
  lemma {:induction false} SubseqMembers<T>(xs: seq<T>, ys: seq<T>)
    requires SubseqOf(xs, ys)
    ensures forall x :: x in xs ==> x in ys
    decreases |ys|
  {
    if |xs| > 0 {
      if xs[0] == ys[0] && SubseqOf(xs[1..], ys[1..]) {
        SubseqMembers(xs[1..], ys[1..]);
        assert xs == [xs[0]] + xs[1..];
        assert ys == [ys[0]] + ys[1..];
      } else {
        SubseqMembers(xs, ys[1..]);
        assert ys == [ys[0]] + ys[1..];
      }
    }
  }

  /** Pairs up two index-aligned lists, stopping at the shorter one (Python's zip). */
  function Zip<A, B>(xs: seq<A>, ys: seq<B>): (r: seq<(A, B)>)
    ensures |r| == if |xs| <= |ys| then |xs| else |ys|
  {
    if |xs| == 0 || |ys| == 0 then [] else [(xs[0], ys[0])] + Zip(xs[1..], ys[1..])
  }

  lemma {:induction false} FlattenSameShape<T, U>(xss: seq<seq<T>>, yss: seq<seq<U>>)
    requires |xss| == |yss|
    requires forall i :: 0 <= i < |xss| ==> |xss[i]| == |yss[i]|
    ensures |Flatten(xss)| == |Flatten(yss)|
  {
    if |xss| > 0 {
      FlattenSameShape(xss[1..], yss[1..]);
    }
  }

  lemma {:induction false} FlattenMember<T>(xss: seq<seq<T>>, x: T)
    ensures x in Flatten(xss) <==> exists i :: 0 <= i < |xss| && x in xss[i]
  {
    if |xss| > 0 {
      FlattenMember(xss[1..], x);
      if x in Flatten(xss[1..]) {
        var i :| 0 <= i < |xss[1..]| && x in xss[1..][i];
        assert x in xss[i + 1];
      }
      forall i | 0 <= i < |xss| && x in xss[i] && i > 0
        ensures x in Flatten(xss[1..])
      {
        assert x in xss[1..][i - 1];
      }
    }
  }

  /** Every inner sequence contributes its elements to the flattening. */
  lemma {:induction false} FlattenCount<T>(xss: seq<seq<T>>, i: nat)
    requires i < |xss|
    ensures multiset(xss[i]) <= multiset(Flatten(xss))
  {
    if i > 0 {
      FlattenCount(xss[1..], i - 1);
    }
  }

  /** An element that occurs in two different inner sequences occurs at least twice in the flattening. */
  lemma {:induction false} FlattenCountTwo<T>(xss: seq<seq<T>>, n: nat, m: nat, x: T)
    requires n < |xss| && m < |xss| && n != m
    requires x in xss[n] && x in xss[m]
    ensures multiset(Flatten(xss))[x] >= 2
  {
    if n == 0 {
      FlattenCount(xss[1..], m - 1);
      assert multiset(Flatten(xss[1..]))[x] >= 1;
    } else if m == 0 {
      FlattenCount(xss[1..], n - 1);
      assert multiset(Flatten(xss[1..]))[x] >= 1;
    } else {
      FlattenCountTwo(xss[1..], n - 1, m - 1, x);
    }
  }

  /** The first occurrence of x does not move when elements are appended. */
  lemma IndexOfPrefix<T>(xs: seq<T>, ys: seq<T>, x: T)
    requires x in xs
    ensures x in xs + ys && IndexOf(xs + ys, x) == IndexOf(xs, x)
  {
    if xs[0] != x {
      assert (xs + ys)[1..] == xs[1..] + ys;
      IndexOfPrefix(xs[1..], ys, x);
    }
  }

  /** Zip of two non-empty lists is their first pair followed by the zip of their tails. */
  lemma ZipCons<A, B>(xs: seq<A>, ys: seq<B>)
    requires |xs| > 0 && |ys| > 0
    ensures |Zip(xs, ys)| > 0
    ensures Zip(xs, ys)[0] == (xs[0], ys[0]) && Zip(xs, ys)[1..] == Zip(xs[1..], ys[1..])
  {
  }

  /** Dropping the first element of the longer list keeps a subsequence of its tail a subsequence. */
  lemma SubseqOfDrop<T>(xs: seq<T>, ys: seq<T>)
    requires |ys| > 0 && SubseqOf(xs, ys[1..])
    ensures SubseqOf(xs, ys)
  {
  }

  /** n copies of x. */
  function Repeat<T>(x: T, n: nat): (r: seq<T>)
    ensures |r| == n
    ensures forall k :: 0 <= k < n ==> r[k] == x
  {
    if n == 0 then [] else [x] + Repeat(x, n - 1)
  }
}

=== FILE: tokens.dfy ===
/**
 * Turning one trimmed input line into the words of a name: apostrophes are deleted,
 * then the line is split on every run of characters that are not ASCII letters, and a
 * trailing empty token is dropped.
 */
module Tokens {
  import opened Seqs

  /** Membership in the regular-expression class [A-Za-z]. */
  predicate IsLetter(c: char)
  {
    'A' <= c <= 'Z' || 'a' <= c <= 'z'
  }

  /** Python's str.upper on one character, for the ASCII range. */
  function Upper(c: char): (u: char)
    ensures 'a' <= c <= 'z' ==> u as int == c as int - 32
    ensures !('a' <= c <= 'z') ==> u == c
    ensures IsLetter(c) ==> 'A' <= u <= 'Z'
  {
    if 'a' <= c <= 'z' then (c as int - 32) as char else c
  }

  /** The characters of s that are letters, in order. */
  function KeepLetters(s: string): (r: string)
    ensures forall k :: 0 <= k < |r| ==> IsLetter(r[k])
  {
    if |s| == 0 then [] else (if IsLetter(s[0]) then [s[0]] else []) + KeepLetters(s[1..])
  }

  /** re.sub("'", '', s): every apostrophe deleted, everything else kept in order. */
  function RemoveApostrophes(s: string): (r: string)
    ensures '\'' !in r
    ensures forall c :: c != '\'' ==> multiset(r)[c] == multiset(s)[c]
    ensures KeepLetters(r) == KeepLetters(s)
    ensures SubseqOf(r, s)
  {
    if |s| == 0 then []
    else
      assert s == [s[0]] + s[1..];
      var rest := RemoveApostrophes(s[1..]);
      if s[0] == '\'' then
        SubseqOfDrop(rest, s);
        rest
      else
        var r := [s[0]] + rest;
        assert r[1..] == rest;
        r
  }

  /**
   * re.split(r"[^A-Za-z]+", s): the pieces between maximal runs of non-letters. A leading
   * separator gives an empty first piece, a trailing one an empty last piece, and the
   * empty string gives one empty piece.
   */
  function SplitNonLetters(s: string): (r: seq<string>)
    ensures |r| >= 1
  {
    if |s| == 0 then [""]
    else
      var rest := SplitNonLetters(s[1..]);
      if IsLetter(s[0]) then [[s[0]] + rest[0]] + rest[1..]
      else if |s| > 1 && !IsLetter(s[1]) then rest
      else [""] + rest
  }

  /** Lines 44-45: delete the last piece when it is empty. */
  function DropTrailingEmpty(pieces: seq<string>): (r: seq<string>)
    requires |pieces| >= 1
    ensures |pieces| - 1 <= |r| <= |pieces| && r == pieces[..|r|]
    ensures |r| < |pieces| <==> pieces[|pieces| - 1] == ""
  {
    if pieces[|pieces| - 1] == "" then pieces[..|pieces| - 1] else pieces
  }

  /** Length of the run of letters that s starts with. */
  function LeadingLetters(s: string): (n: nat)
    ensures n <= |s|
    ensures forall k :: 0 <= k < n ==> IsLetter(s[k])
    ensures n < |s| ==> !IsLetter(s[n])
  {
    if |s| == 0 || !IsLetter(s[0]) then 0 else 1 + LeadingLetters(s[1..])
  }

  /** The maximal runs of letters in s, left to right: the reference the split is compared with. */
  function LetterRuns(s: string): seq<string>
    decreases |s|
  {
    if |s| == 0 then []
    else if !IsLetter(s[0]) then LetterRuns(s[1..])
    else
      var n := LeadingLetters(s);
      [s[..n]] + LetterRuns(s[n..])
  }

  /** The empty piece a leading separator produces. */
  function Lead(s: string): seq<string>
  {
    if |s| > 0 && !IsLetter(s[0]) then [""] else []
  }

  /** The empty piece a trailing separator produces. */
  function Trail(s: string): seq<string>
  {
    if |s| > 0 && !IsLetter(s[|s| - 1]) then [""] else []
  }

  /** Lines 39-45 of cleanNames: the words of one already-trimmed line. */
  function Tokenize(line: string): (words: seq<string>)
    ensures var s := RemoveApostrophes(line); words == Lead(s) + LetterRuns(s)
    ensures forall w, k :: 0 <= w < |words| && 0 <= k < |words[w]| ==> IsLetter(words[w][k])
    ensures forall w :: 0 < w < |words| ==> words[w] != ""
    ensures Flatten(words) == KeepLetters(line)
  {
    var s := RemoveApostrophes(line);
    SplitDropsTrail(s);
    RunsAreWords(s);
    RunsFlatten(s);
    FlattenLead(s);
    DropTrailingEmpty(SplitNonLetters(s))
  }

  /** Lines 43-45 together: the split without its trailing empty piece is Lead(s) + LetterRuns(s). */
  lemma SplitDropsTrail(s: string)
    ensures DropTrailingEmpty(SplitNonLetters(s)) == Lead(s) + LetterRuns(s)
  {
    SplitIsRuns(s);
    if |s| > 0 && IsLetter(s[|s| - 1]) {
      LastRunNonEmpty(s);
    }
  }

  /** The empty leading piece contributes no letters. */
  lemma FlattenLead(s: string)
    ensures Flatten(Lead(s) + LetterRuns(s)) == Flatten(LetterRuns(s))
  {
    if |s| > 0 && !IsLetter(s[0]) {
      var xs := [""] + LetterRuns(s);
      assert xs[0] == "" && xs[1..] == LetterRuns(s);
    } else {
      assert Lead(s) + LetterRuns(s) == LetterRuns(s);
    }
  }

  /** A line that ends in a letter ends in a non-empty run. */
  lemma LastRunNonEmpty(s: string)
    requires |s| > 0 && IsLetter(s[|s| - 1])
    ensures |LetterRuns(s)| > 0 && LetterRuns(s)[|LetterRuns(s)| - 1] != ""
  {
    RunsFlatten(s);
    RunsAreWords(s);
    assert s == s[..|s| - 1] + [s[|s| - 1]];
    KeepLettersAppend(s[..|s| - 1], [s[|s| - 1]]);
    assert |KeepLetters(s)| > 0;
  }

  /** The hand-written split agrees with "leading empty piece, letter runs, trailing empty piece". */
  lemma {:induction false} SplitIsRuns(s: string)
    ensures |s| == 0 ==> SplitNonLetters(s) == [""]
    ensures |s| > 0 ==> SplitNonLetters(s) == Lead(s) + LetterRuns(s) + Trail(s)
    decreases |s|
  {
    if |s| == 1 {
      SplitOne(s);
    } else if |s| > 1 {
      SplitIsRuns(s[1..]);
      if IsLetter(s[0]) {
        SplitLetterStep(s);
        assert Lead(s) + LetterRuns(s) == LetterRuns(s);
      } else {
        SplitSeparatorStep(s);
      }
    }
  }

  lemma {:induction false} SplitOne(s: string)
    requires |s| == 1
    ensures SplitNonLetters(s) == Lead(s) + LetterRuns(s) + Trail(s)
  {
    assert s[1..] == [];
    assert SplitNonLetters(s[1..]) == [""];
    assert LetterRuns(s[1..]) == [];
    if IsLetter(s[0]) {
      var rest := SplitNonLetters(s[1..]);
      assert [s[0]] + rest[0] == s;
      assert rest[1..] == [];
      assert SplitNonLetters(s) == [s];
      assert s[..1] == s;
      assert LetterRuns(s) == [s];
    }
  }

  /** The step of SplitIsRuns for a line that starts with a separator. */
  lemma SplitSeparatorStep(s: string)
    requires |s| > 1 && !IsLetter(s[0])
    requires SplitNonLetters(s[1..]) == Lead(s[1..]) + LetterRuns(s[1..]) + Trail(s[1..])
    ensures SplitNonLetters(s) == Lead(s) + LetterRuns(s) + Trail(s)
  {
    assert Trail(s) == Trail(s[1..]);
    assert LetterRuns(s) == LetterRuns(s[1..]);
  }

  /** The step of SplitIsRuns for a line that starts with a letter. */
  lemma {:induction false} SplitLetterStep(s: string)
    requires |s| > 1 && IsLetter(s[0])
    requires SplitNonLetters(s[1..]) == Lead(s[1..]) + LetterRuns(s[1..]) + Trail(s[1..])
    ensures SplitNonLetters(s) == LetterRuns(s) + Trail(s)
  {
    var t := s[1..];
    var rest := SplitNonLetters(t);
    assert SplitNonLetters(s) == [[s[0]] + rest[0]] + rest[1..];
    assert Trail(s) == Trail(t);
    if IsLetter(t[0]) {
      SplitJoinsRun(s);
    } else {
      assert rest == [""] + (LetterRuns(t) + Trail(t));
      assert rest[1..] == LetterRuns(t) + Trail(t);
      assert LeadingLetters(s) == 1;
      assert [s[0]] + rest[0] == s[..1];
      assert LetterRuns(s) == [s[..1]] + LetterRuns(t);
    }
  }

  /** A letter followed by a letter extends the first piece of the rest of the line. */
  lemma SplitJoinsRun(s: string)
    requires |s| > 1 && IsLetter(s[0]) && IsLetter(s[1])
    requires SplitNonLetters(s[1..]) == Lead(s[1..]) + LetterRuns(s[1..]) + Trail(s[1..])
    ensures SplitNonLetters(s) == LetterRuns(s) + Trail(s)
  {
    var t := s[1..];
    var rest := SplitNonLetters(t);
    var runs := LetterRuns(t);
    assert SplitNonLetters(s) == [[s[0]] + rest[0]] + rest[1..];
    assert |runs| > 0 && LetterRuns(s) == [[s[0]] + runs[0]] + runs[1..] by {
      RunsJoin(s);
    }
    assert rest == runs + Trail(t) by {
      assert Lead(t) == [];
    }
    assert Trail(s) == Trail(t);
    ExtendFirst(rest, runs, Trail(t), s[0]);
  }

  /** Prefixing c to the first piece commutes with appending the trailing pieces. */
  lemma ExtendFirst(rest: seq<string>, runs: seq<string>, trail: seq<string>, c: char)
    requires rest == runs + trail && |runs| > 0
    ensures [[c] + rest[0]] + rest[1..] == ([[c] + runs[0]] + runs[1..]) + trail
  {
    assert rest[1..] == runs[1..] + trail;
  }

  /** The same fact for the runs: the first run of s is s[0] followed by the first run of s[1..]. */
  lemma RunsJoin(s: string)
    requires |s| > 1 && IsLetter(s[0]) && IsLetter(s[1])
    ensures |LetterRuns(s[1..])| > 0
    ensures LetterRuns(s) == [[s[0]] + LetterRuns(s[1..])[0]] + LetterRuns(s[1..])[1..]
  {
    var t := s[1..];
    var n := LeadingLetters(t);
    assert LeadingLetters(s) == n + 1;
    assert LetterRuns(t) == [t[..n]] + LetterRuns(t[n..]);
    assert s[..n + 1] == [s[0]] + t[..n];
    assert s[n + 1..] == t[n..];
  }

  /** Each run is a non-empty word of letters. */
  lemma {:induction false} RunsAreWords(s: string)
    ensures forall w :: 0 <= w < |LetterRuns(s)| ==> LetterRuns(s)[w] != ""
    ensures forall w, k :: 0 <= w < |LetterRuns(s)| && 0 <= k < |LetterRuns(s)[w]| ==> IsLetter(LetterRuns(s)[w][k])
    decreases |s|
  {
    if |s| > 0 {
      if !IsLetter(s[0]) {
        RunsAreWords(s[1..]);
      } else {
        var n := LeadingLetters(s);
        RunsAreWords(s[n..]);
        var runs := LetterRuns(s);
        assert runs == [s[..n]] + LetterRuns(s[n..]);
        forall w | 0 < w < |runs|
          ensures runs[w] == LetterRuns(s[n..])[w - 1]
        {
        }
      }
    }
  }

  lemma {:induction false} KeepLettersAppend(a: string, b: string)
    ensures KeepLetters(a + b) == KeepLetters(a) + KeepLetters(b)
    decreases |a|
  {
    if |a| == 0 {
      assert a + b == b;
    } else {
      assert (a + b)[0] == a[0];
      assert (a + b)[1..] == a[1..] + b;
      KeepLettersAppend(a[1..], b);
      var head: string := if IsLetter(a[0]) then [a[0]] else [];
      assert KeepLetters(a + b) == head + KeepLetters(a[1..] + b);
      assert KeepLetters(a) == head + KeepLetters(a[1..]);
      assert head + (KeepLetters(a[1..]) + KeepLetters(b)) == (head + KeepLetters(a[1..])) + KeepLetters(b);
    }
  }

  lemma {:induction false} KeepAllLetters(a: string)
    requires forall k :: 0 <= k < |a| ==> IsLetter(a[k])
    ensures KeepLetters(a) == a
    decreases |a|
  {
    if |a| > 0 {
      KeepAllLetters(a[1..]);
    }
  }

  /** The runs hold exactly the letters of s, in order. */
  lemma {:induction false} RunsFlatten(s: string)
    ensures Flatten(LetterRuns(s)) == KeepLetters(s)
    decreases |s|
  {
    if |s| > 0 {
      if !IsLetter(s[0]) {
        RunsFlatten(s[1..]);
      } else {
        var n := LeadingLetters(s);
        RunsFlatten(s[n..]);
        var runs := LetterRuns(s);
        assert runs[1..] == LetterRuns(s[n..]);
        KeepAllLetters(s[..n]);
        KeepLettersAppend(s[..n], s[n..]);
        assert s == s[..n] + s[n..];
      }
    }
  }
}

=== FILE: types.dfy ===
/** The parallel lists that the deduplication and selection stages pass along. */
module Types {

  /** One name's abbreviation texts and their scores; position k of one belongs with position k of the other. */
  datatype Entries = Entries(abbs: seq<string>, scores: seq<int>)

  /** Every name's abbreviation texts and every name's scores, as two nested lists. */
  datatype Lists = Lists(abbs: seq<seq<string>>, scores: seq<seq<int>>)

  /**
   * A score list for every name, and a score for every abbreviation of that name: what the
   * pair filter Across.DeduplicateAcross reads. deduplicateWithin and getBestAbbreviations read
   * a name's score list only inside its per-text loop, so for them it is at least what they
   * need: a name with no texts needs no score list there. The as-written deduplicateAcross
   * needs only Across.Markable, and abbreviate works on the nested letter scores instead.
   * Every list main passes along is aligned, so this never excludes a run.
   */
  predicate Indexable(abbs: seq<seq<string>>, scores: seq<seq<int>>)
  {
    |abbs| <= |scores| && forall n :: 0 <= n < |abbs| ==> |abbs[n]| <= |scores[n]|
  }

  /** The two nested lists have exactly the same shape. */
  predicate Aligned(abbs: seq<seq<string>>, scores: seq<seq<int>>)
  {
    |abbs| == |scores| && forall n :: 0 <= n < |abbs| ==> |abbs[n]| == |scores[n]|
  }
}

=== FILE: within.dfy ===
/**
 * Deduplication within one name (deduplicateWithin): a dictionary from abbreviation
 * text to the lowest score seen, whose keys keep the order in which the texts first
 * appeared (Python dictionaries iterate in insertion order).
 */
module Within {
  import opened Seqs
  import opened Types

  /** The dictionary minabbscore: its keys in insertion order, and the score stored for each. */
  datatype MinTable = MinTable(keys: seq<string>, best: map<string, int>)

  /** Lines 192-193 for one candidate: a new text is added at the end, a strictly lower score replaces the stored one. */
  function Record(t: MinTable, a: string, s: int): MinTable
  {
    if a !in t.best || s < t.best[a] then
      MinTable(if a in t.best then t.keys else t.keys + [a], t.best[a := s])
    else t
  }

  /**
   * What one update does: the text is stored with the lower of its old and new score, no
   * other entry changes, and a new text is appended to the keys while a known one keeps them.
   */
  lemma RecordUpdates(t: MinTable, a: string, s: int)
    ensures var r := Record(t, a, s);
      && a in r.best && r.best[a] == (if a in t.best && t.best[a] <= s then t.best[a] else s)
      && (forall b :: b != a ==> (b in r.best <==> b in t.best))
      && (forall b :: b != a && b in t.best ==> r.best[b] == t.best[b])
      && (a in t.best ==> r.keys == t.keys)
      && (a !in t.best ==> r.keys == t.keys + [a])
  {
  }

  /** The dictionary after the inner loop has seen every candidate of abbs. */
  function Fold(abbs: seq<string>, scores: seq<int>): (t: MinTable)
    requires |abbs| <= |scores|
    ensures forall a :: a in t.best <==> a in t.keys
    ensures Distinct(t.keys)
    decreases |abbs|
  {
    if |abbs| == 0 then MinTable([], map[])
    else Record(Fold(abbs[..|abbs| - 1], scores), abbs[|abbs| - 1], scores[|abbs| - 1])
  }

  /** The keys are exactly the texts seen. */
  lemma {:induction false} FoldKeys(abbs: seq<string>, scores: seq<int>)
    requires |abbs| <= |scores|
    ensures forall a :: a in Fold(abbs, scores).best <==> a in abbs
    decreases |abbs|
  {
    if |abbs| > 0 {
      var pre := abbs[..|abbs| - 1];
      FoldKeys(pre, scores);
      assert abbs == pre + [abbs[|abbs| - 1]];
    }
  }

  /** v is the lowest score that any occurrence of text a has. */
  predicate IsLowestScore(abbs: seq<string>, scores: seq<int>, a: string, v: int)
    requires |abbs| <= |scores|
  {
    && (forall i :: 0 <= i < |abbs| && abbs[i] == a ==> v <= scores[i])
    && (exists i :: 0 <= i < |abbs| && abbs[i] == a && scores[i] == v)
  }

  /** The texts of keys occur in abbs, and in the order of their first occurrences. */
  predicate InFirstSeenOrder(abbs: seq<string>, keys: seq<string>)
  {
    && (forall p :: 0 <= p < |keys| ==> keys[p] in abbs)
    && (forall p, q :: 0 <= p < q < |keys| ==> IndexOf(abbs, keys[p]) < IndexOf(abbs, keys[q]))
  }

  /** Each stored score is the lowest score any occurrence of its text had. */
  lemma {:induction false} FoldMinimum(abbs: seq<string>, scores: seq<int>)
    requires |abbs| <= |scores|
    ensures forall a :: a in Fold(abbs, scores).best ==> IsLowestScore(abbs, scores, a, Fold(abbs, scores).best[a])
    decreases |abbs|
  {
    if |abbs| > 0 {
      var m := |abbs| - 1;
      var pre := abbs[..m];
      var x, s := abbs[m], scores[m];
      FoldMinimum(pre, scores);
      FoldKeys(pre, scores);
      var t0 := Fold(pre, scores);
      var t := Fold(abbs, scores);
      assert t == Record(t0, x, s);
      forall a | a in t.best
        ensures IsLowestScore(abbs, scores, a, t.best[a])
      {
        LowestAfterRecord(abbs, scores, t0, a);
      }
    }
  }

  /** The inductive step of FoldMinimum for one text a. */
  lemma LowestAfterRecord(abbs: seq<string>, scores: seq<int>, t0: MinTable, a: string)
    requires 0 < |abbs| <= |scores|
    requires forall b :: b in t0.best <==> b in abbs[..|abbs| - 1]
    requires forall b :: b in t0.best ==> IsLowestScore(abbs[..|abbs| - 1], scores, b, t0.best[b])
    requires a in Record(t0, abbs[|abbs| - 1], scores[|abbs| - 1]).best
    ensures IsLowestScore(abbs, scores, a, Record(t0, abbs[|abbs| - 1], scores[|abbs| - 1]).best[a])
  {
    var m := |abbs| - 1;
    var pre := abbs[..m];
    var x, s := abbs[m], scores[m];
    var t := Record(t0, x, s);
    assert forall i :: 0 <= i < m ==> pre[i] == abbs[i];
    if a == x && (x !in t0.best || s < t0.best[x]) {
      assert abbs[m] == a && scores[m] == t.best[a];
      if x in t0.best {
        assert IsLowestScore(pre, scores, a, t0.best[a]);
      } else {
        assert forall i :: 0 <= i < m ==> pre[i] != a;
      }
    } else {
      assert a in t0.best && t.best[a] == t0.best[a];
      assert IsLowestScore(pre, scores, a, t0.best[a]);
      var i :| 0 <= i < m && pre[i] == a && scores[i] == t0.best[a];
      assert abbs[i] == a && scores[i] == t.best[a];
    }
  }

  /** The keys are ordered by where their text first occurs. */
  lemma {:induction false} FoldOrder(abbs: seq<string>, scores: seq<int>)
    requires |abbs| <= |scores|
    ensures InFirstSeenOrder(abbs, Fold(abbs, scores).keys)
    decreases |abbs|
  {
    if |abbs| > 0 {
      var pre := abbs[..|abbs| - 1];
      FoldOrder(pre, scores);
      OrderStep(abbs, scores);
    }
  }

  /** The inductive step of FoldOrder, stated on the dictionaries before and after the last candidate. */
  lemma OrderStep(abbs: seq<string>, scores: seq<int>)
    requires 0 < |abbs| <= |scores|
    requires InFirstSeenOrder(abbs[..|abbs| - 1], Fold(abbs[..|abbs| - 1], scores).keys)
    ensures InFirstSeenOrder(abbs, Fold(abbs, scores).keys)
  {
    var pre := abbs[..|abbs| - 1];
    var k0 := Fold(pre, scores).keys;
    assert forall a :: a in k0 <==> a in pre by {
      FoldKeys(pre, scores);
    }
    KeysGrow(abbs, scores);
    OrderAfterRecord(abbs, k0, Fold(abbs, scores).keys);
  }

  /** One more candidate either leaves the keys alone or appends its text, when it is new. */
  lemma KeysGrow(abbs: seq<string>, scores: seq<int>)
    requires 0 < |abbs| <= |scores|
    ensures var pre, x := abbs[..|abbs| - 1], abbs[|abbs| - 1];
      var k0, keys := Fold(pre, scores).keys, Fold(abbs, scores).keys;
      keys == k0 || (x !in pre && keys == k0 + [x])
  {
    FoldKeys(abbs[..|abbs| - 1], scores);
  }

  /** The inductive step of FoldOrder: keys either stay as they are or gain the new text at the end. */
  lemma OrderAfterRecord(abbs: seq<string>, k0: seq<string>, keys: seq<string>)
    requires |abbs| > 0
    requires InFirstSeenOrder(abbs[..|abbs| - 1], k0)
    requires forall a :: a in k0 <==> a in abbs[..|abbs| - 1]
    requires keys == k0 || (abbs[|abbs| - 1] !in abbs[..|abbs| - 1] && keys == k0 + [abbs[|abbs| - 1]])
    ensures InFirstSeenOrder(abbs, keys)
  {
    var pre, x := abbs[..|abbs| - 1], abbs[|abbs| - 1];
    assert abbs == pre + [x];
    forall a | a in k0
      ensures a in abbs && IndexOf(abbs, a) == IndexOf(pre, a) < |pre|
    {
      IndexOfPrefix(pre, [x], a);
    }
    if keys != k0 {
      assert IndexOf(abbs, x) == |pre| by {
        assert x !in abbs[..|pre|];
      }
      forall p, q | 0 <= p < q < |keys|
        ensures IndexOf(abbs, keys[p]) < IndexOf(abbs, keys[q])
      {
        assert keys[p] == k0[p];
        if q < |k0| {
          assert keys[q] == k0[q];
        }
      }
    }
  }

  /** Texts that are already distinct come out unchanged, each with its own score. */
  lemma {:induction false} FoldDistinct(abbs: seq<string>, scores: seq<int>)
    requires |abbs| <= |scores| && Distinct(abbs)
    ensures Fold(abbs, scores).keys == abbs
    ensures forall i :: 0 <= i < |abbs| ==> abbs[i] in Fold(abbs, scores).best && Fold(abbs, scores).best[abbs[i]] == scores[i]
    decreases |abbs|
  {
    if |abbs| > 0 {
      var m := |abbs| - 1;
      var pre, x := abbs[..m], abbs[m];
      assert abbs == pre + [x];
      assert forall i :: 0 <= i < m ==> pre[i] == abbs[i];
      FoldDistinct(pre, scores);
      FoldKeys(pre, scores);
      FreshStep(pre, x, Fold(pre, scores), scores);
    }
  }

  /** The step of FoldDistinct: a new text goes at the end and the stored scores stay. */
  lemma FreshStep(pre: seq<string>, x: string, t0: MinTable, scores: seq<int>)
    requires |pre| < |scores| && x !in pre
    requires t0.keys == pre && forall a :: a in t0.best <==> a in pre
    requires forall i :: 0 <= i < |pre| ==> pre[i] in t0.best && t0.best[pre[i]] == scores[i]
    ensures Record(t0, x, scores[|pre|]).keys == pre + [x]
    ensures forall i :: 0 <= i < |pre| + 1 ==>
      (pre + [x])[i] in Record(t0, x, scores[|pre|]).best && Record(t0, x, scores[|pre|]).best[(pre + [x])[i]] == scores[i]
  {
    var t := Record(t0, x, scores[|pre|]);
    assert t == MinTable(pre + [x], t0.best[x := scores[|pre|]]);
    forall i | 0 <= i < |pre| + 1
      ensures (pre + [x])[i] in t.best && t.best[(pre + [x])[i]] == scores[i]
    {
      if i < |pre| {
        assert (pre + [x])[i] == pre[i] != x;
      }
    }
  }

  /** One iteration of the outer loop (lines 182-195): the deduplicated texts of one name and their scores. */
  function DedupName(abbs: seq<string>, scores: seq<int>): (r: Entries)
    requires |abbs| <= |scores|
    ensures |r.scores| == |r.abbs|
    ensures Distinct(r.abbs)
    ensures forall a :: a in r.abbs <==> a in abbs
    ensures forall p :: 0 <= p < |r.abbs| ==>
      && (forall i :: 0 <= i < |abbs| && abbs[i] == r.abbs[p] ==> r.scores[p] <= scores[i])
      && (exists i :: 0 <= i < |abbs| && abbs[i] == r.abbs[p] && scores[i] == r.scores[p])
    ensures forall p, q :: 0 <= p < q < |r.abbs| ==> IndexOf(abbs, r.abbs[p]) < IndexOf(abbs, r.abbs[q])
  {
    var t := Fold(abbs, scores);
    FoldKeys(abbs, scores);
    FoldMinimum(abbs, scores);
    FoldOrder(abbs, scores);
    Entries(t.keys, Values(t))
  }

  /** list(minabbscore.values()) (line 195): the stored scores in key order. */
  function Values(t: MinTable): seq<int>
    requires forall a :: a in t.keys ==> a in t.best
  {
    seq(|t.keys|, p requires 0 <= p < |t.keys| => t.best[t.keys[p]])
  }

  /** On distinct texts the stored scores, in key order, are the texts' own scores. */
  lemma ValuesDistinct(abbs: seq<string>, scores: seq<int>)
    requires |abbs| <= |scores| && Distinct(abbs)
    ensures Fold(abbs, scores).keys == abbs && Values(Fold(abbs, scores)) == scores[..|abbs|]
  {
    FoldDistinct(abbs, scores);
    var t := Fold(abbs, scores);
    var want := scores[..|abbs|];
    assert forall p :: 0 <= p < |abbs| ==> Values(t)[p] == t.best[abbs[p]] == scores[p] == want[p];
  }

  /** deduplicateWithin: every name deduplicated on its own; the result lists are aligned. */
  function DeduplicateWithin(abbs: seq<seq<string>>, scores: seq<seq<int>>): (r: Lists)
    requires Indexable(abbs, scores)
    ensures |r.abbs| == |abbs|
    ensures Aligned(r.abbs, r.scores)
    ensures forall n :: 0 <= n < |abbs| ==> DedupName(abbs[n], scores[n]) == Entries(r.abbs[n], r.scores[n])
  {
    var each := seq(|abbs|, n requires 0 <= n < |abbs| => DedupName(abbs[n], scores[n]));
    Lists(seq(|abbs|, n requires 0 <= n < |abbs| => each[n].abbs),
          seq(|abbs|, n requires 0 <= n < |abbs| => each[n].scores))
  }

  /** Distinct input is returned as it is: the only change the stage makes is merging repeats. */
  lemma DedupNameDistinct(abbs: seq<string>, scores: seq<int>)
    requires |abbs| <= |scores| && Distinct(abbs)
    ensures DedupName(abbs, scores) == Entries(abbs, scores[..|abbs|])
  {
    ValuesDistinct(abbs, scores);
  }

  /** Deduplicating a second time changes nothing. */
  lemma {:induction false} DedupNameIdempotent(abbs: seq<string>, scores: seq<int>)
    requires |abbs| <= |scores|
    ensures var r := DedupName(abbs, scores); DedupName(r.abbs, r.scores) == r
  {
    var r := DedupName(abbs, scores);
    DedupNameDistinct(r.abbs, r.scores);
    assert r.scores[..|r.abbs|] == r.scores;
  }

  /** deduplicateWithin is idempotent. */
  lemma {:induction false} DeduplicateWithinIdempotent(abbs: seq<seq<string>>, scores: seq<seq<int>>)
    requires Indexable(abbs, scores)
    ensures var r := DeduplicateWithin(abbs, scores); DeduplicateWithin(r.abbs, r.scores) == r
  {
    var r := DeduplicateWithin(abbs, scores);
    var r2 := DeduplicateWithin(r.abbs, r.scores);
    forall n | 0 <= n < |abbs|
      ensures r2.abbs[n] == r.abbs[n] && r2.scores[n] == r.scores[n]
    {
      DedupNameIdempotent(abbs[n], scores[n]);
    }
    assert r2.abbs == r.abbs;
    assert r2.scores == r.scores;
  }
}
